=== FILE: README.md ===
# Branch-flow graph builder of `analyze_python.py`

This project models the part of `scripts/analyze_python.py` that turns the body
of every Python function into a *branch-flow graph*. Decision points are
recorded as **branches**. These are conditionals (`if`/`elif`), loops (`for`,
`while`), `try`, `with`, calls made as statements, `return` and `raise`.
Each branch has an id `owner::kind#idx`, its lines, a one-line snippet and, for
calls, the callee. Directed **flows** connect the branches, labelled `next`,
`true` or `false`. One extra `next` flow runs from the synthetic anchor
`owner::<qualified name>` to the first branch of each function.

The model follows the code statement by statement:

- `Graph`: the per-`(owner, kind)` index counter, the deduplicated edge list and
  the builder state threaded through one run.
- `Collector`: `_collect_stmt` and `_collect_block`, with the statement call
  finder `_extract_stmt_call` and `_call_name`. Conditionals go to `CollectIf`,
  every other statement to `CollectLeaf`. A block is processed as a left fold
  over its statements, so pending exit anchors are wired to the next branch in
  the same order as in the loop of the source.
- `Oracle`: the reachability oracle `_known_truth_value`. It is proved sound.
  It is also proved complete, but only relative to the reduced literal syntax
  of the model, where `True`, `False`, `None` and `not` are the only fixed
  cases and every other constant is one opaque literal.
- `FallThrough`: the syntactic `_stmt_falls_through` / `_block_falls_through`.
- `Snippet`: snippet rendering (first line, 70-character limit) and the textual
  `elif` test.
- `Unique`: first-occurrence deduplication (`list(dict.fromkeys(...))`).
- `Analysis`: qualified names, the entry anchor, and a run over a list of function definitions.
- `Growth`: the frame lemmas. A statement or block only appends. Every branch it
  records is new. Every edge it adds starts at a branch it recorded. The builder
  invariant is preserved.
- `Properties`: the graph-level guarantees built on those lemmas.
- `Sources`: every edge that starts at a branch starts at a conditional, loop,
  `try`, `with` or call, never at a `return` or `raise` branch. The other edges
  are the entry anchors, which start at a function's qualified name.
- `Scenarios`: the guard clause `if x: return` followed by `y()`, worked out in
  full.

Two pieces of the source are dead code, and the model proves it:

- The clear of pending exits after a statement that produces no branch and does
  not fall through (line 249) never happens. Such a statement always falls
  through (`PlainStatementKeepsBlock`).
- The `next` arm at lines 291-292 can only fire for a conditional without an
  else. That case is overwritten at lines 300-305, so a conditional with an
  else never leaves a `next` anchor on itself (`IfElseExits`). Exits passed up
  from its sides keep their own types and can be `next`, for example the exit
  of a `for` loop in the then-block.

The model keeps both arms as written.

## Model

| member | source | states |
|---|---|---|
| Snippet.FirstLine | scripts/analyze_python.py:125 | the result is a prefix of the text, holds no line break, and is followed by a line break or the end of the text |
| Snippet.Truncate | scripts/analyze_python.py:126 | the result never exceeds 70 characters; the line is kept unchanged iff it has at most 70 characters, otherwise the result is its first 67 characters followed by "..." |
| Snippet.SnippetOf | scripts/analyze_python.py:118-127 | the snippet is at most 70 characters and has no line break; it is empty for missing source text, and otherwise is the first line cut by the 70-character rule, so the whole first line when that line is short enough |
| Snippet.SnippetOr | scripts/analyze_python.py:260 | the recorded snippet is the rendered one when that is non-empty and the fallback exactly when it is empty, so it is never empty when the fallback is not |
| Snippet.LStrip | scripts/analyze_python.py:261 | the result is a suffix of the input, everything removed is Python whitespace, and the result does not start with whitespace |
| Snippet.IsElifHeader | scripts/analyze_python.py:261 | a header counts as `elif` iff, after a possibly empty run of Python whitespace at its start, it continues with "elif " |
| Scenarios.IfHeaderIsNotElif | scripts/analyze_python.py:260-261 | the fallback header "if ...:" is classified as an `if`, not an `elif` |
| Oracle.KnownTruth | scripts/analyze_python.py:211-222 | only constants and negations are ever resolved, and a constant is resolved exactly when it is a bool or None |
| Oracle.KnownTruthSound | scripts/analyze_python.py:211-222 | a resolved condition has that truth value in every environment |
| Oracle.KnownTruthComplete | scripts/analyze_python.py:211-222 | an unresolved condition takes different truth values in two environments |
| Oracle.DoubleNegation | scripts/analyze_python.py:217-221 | `not not e` is resolved exactly as `e` |
| FallThrough.StmtFalls | scripts/analyze_python.py:202-209 | `return` and `raise` never fall through, a conditional without an else always does, and every statement that is not a conditional, `return` or `raise` does |
| FallThrough.BlockFallsIffEvery | scripts/analyze_python.py:224-230 | a block falls through iff every one of its statements does |
| FallThrough.TerminalBlocksDoNotFall | scripts/analyze_python.py:202-230 | a block containing a `return` or `raise` anywhere does not fall through |
| FallThrough.IfFallsIffEitherSide | scripts/analyze_python.py:205-208 | a conditional falls through iff all of its then-block or all of its else-block falls through; always when it has no else |
| Unique.Dedup | scripts/analyze_python.py:307 | the result has no duplicates, holds exactly the elements of the input, and equals the input when that is already duplicate-free |
| Unique.DedupSnoc | scripts/analyze_python.py:307 | appending an element extends the result by it iff it is new, so elements appear in order of first occurrence |
| Graph.NextBranchIdx | scripts/analyze_python.py:27-31 | the index handed out is the current count for (owner, kind), which then goes up by one; every other key is untouched |
| Graph.DrawsCountUp | scripts/analyze_python.py:27-31 | successive draws for one key return c, c+1, c+2, ... from its current count c (0 for a new key) |
| Graph.AddFlow | scripts/analyze_python.py:154-161 | an edge triple already seen leaves the builder unchanged; a new one is appended once; the invariant is preserved |
| Graph.AddBranch | scripts/analyze_python.py:163-185 | the new branch gets the next index for its (owner, kind), is appended with its lines and snippet, carries a callee iff a non-empty one is given, and leaves the edges alone |
| Graph.IdsDistinct | scripts/analyze_python.py:171-172 | in a valid builder no two branches share an id |
| Graph.Connect | scripts/analyze_python.py:244-245 | every pending exit becomes an edge into the target with the anchor's own flow type, and no other edge is added; the new edges are appended in the order of the pending exits, skipping triples already recorded (first-occurrence deduplication against the seen-set) |
| Collector.ExtractStmtCall | scripts/analyze_python.py:129-145 | a call is found iff the value of an expression statement, an assignment, an augmented assignment or an annotated assignment with a value is a call or an awaited call; the result is that call, with one `await` removed |
| Collector.CallName | scripts/analyze_python.py:147-152 | the callee is the called name, the attribute name of a method call, and "call" for any other callee expression |
| Collector.CollectStmt | scripts/analyze_python.py:253-356 | a statement produces a branch iff it is a conditional, return, raise, statement call, loop, try or with; return/raise leave no exits and stop the path; straight-line statements leave one `next` exit; a conditional without else leaves `next` (falling body) or `false` (terminal body) from itself |
| Collector.CollectLeaf | scripts/analyze_python.py:310-324 | a `return` records exactly one new `return` branch with fallback snippet "return ..." or "return" depending on its value, a `raise` exactly one `raise` branch with fallback "raise ...", each with no callee, no edge, no exit and no fall-through |
| Collector.CollectIf | scripts/analyze_python.py:259-305 | the conditional's entry is the next `elif` or `if` branch of its owner, chosen by its header; without an else it falls through with the single exit chosen by its body's fall-through |
| Collector.CollectSimple | scripts/analyze_python.py:326-356 | a statement call records exactly one `call` branch whose snippet falls back to "callee(...)" and whose callee is the call's name when that is non-empty; otherwise a `for`, `while`, `try` or `with` records exactly one branch of that kind with fallback "for ...:", "while ...:", the fixed "try:", or "with ...:"; no edge is added; other statements are skipped and fall through |
| Collector.ForkOf | scripts/analyze_python.py:259-276 | the conditional's branch is the next `elif`/`if` branch of its owner; the then-side is reachable unless the oracle says false and the else-side unless it says true; the body is processed right after the header is recorded and the else-block after the body; each side's fall-through is its block's syntactic one |
| Collector.WireFork | scripts/analyze_python.py:278-281 | only `true`/`false` edges from the conditional into the entry of a reachable side are added, and each such edge is present; the `true` edge is appended before the `false` edge, each only when not recorded before |
| Collector.ForkExits | scripts/analyze_python.py:283-294 | every exit comes from a reachable side or is an anchor on the conditional for a reachable side that fell through without a branch; an anchor is `next` only without an else; a reachable side that produced no branch and falls through does leave its anchor on the conditional (`true` for the then-side; `next` or `false` for the else-side); the reachable then-side's exits come first, then the else-side's, followed by at most two anchors, the `true` anchor right after the sides' exits and the else-side's anchor last |
| Collector.CollectBlock | scripts/analyze_python.py:232-251 | the block's fall-through is the syntactic one; a block producing no branch leaves no exits and the builder unchanged |
| Growth.BlockGrows | scripts/analyze_python.py:232-251 | processing a block only appends; its entry is the first branch it records; every exit and every new edge starts at a branch it recorded; the builder invariant is preserved |
| Properties.IfRecordsHeader | scripts/analyze_python.py:259-264 | the first branch a conditional records is its own: the next `elif`/`if` branch of its owner, with the conditional's lines, its snippet or "if ...:", and no callee |
| Properties.ForkEdges | scripts/analyze_python.py:278-281 | the only edges leaving a conditional are its fork edges, and those into reachable sides are present |
| Properties.DeadBranchSuppressed | scripts/analyze_python.py:265-281 | no `true` edge leaves a conditional known false, and no `false` edge one known true |
| Properties.IfElseExits | scripts/analyze_python.py:283-308 | with an else, the exits are duplicate-free and consist of the reachable sides' exits plus anchors on the conditional; a reachable side that produced no branch and falls through leaves the anchor `true` (then-side) or `false` (else-side) on the conditional; an anchor on the conditional itself is never `next`; it falls through iff a reachable side does |
| Properties.FallsRefinesSyntactic | scripts/analyze_python.py:308 | the fall-through of a statement never claims more than the syntactic analysis, and equals it when the oracle does not resolve the test |
| Properties.BlockEntryIffEmits | scripts/analyze_python.py:241-243 | a block has an entry iff some statement in it produces a branch |
| Properties.BlockEntryIsFirstEmitter | scripts/analyze_python.py:241-243 | a block's entry is the entry of its first branch-producing statement |
| Properties.PlainStatementKeepsBlock | scripts/analyze_python.py:247-249 | a statement producing no branch leaves the block's entry, pending exits and builder unchanged |
| Properties.BlockExitsOfLastEmitter | scripts/analyze_python.py:246 | a block's pending exits are those of its last branch-producing statement |
| Properties.BlockWiring | scripts/analyze_python.py:241-246 | the exits pending before a branch-producing statement all become edges into its entry with their own flow types, and no other edge is added by the wiring |
| Analysis.QualifiedName | scripts/analyze_python.py:58-62 | at module scope the qualified name is the function's name, otherwise the scope, a dot and the name |
| Analysis.AnalyzeFunction | scripts/analyze_python.py:97-101 | a function's branches and counters are those its body leaves; its edges are the body's plus the `next` anchor edge from its qualified name to the body's entry, which is recorded when the body has an entry; it only appends and keeps the builder invariant |
| Analysis.AnalyzeAll | scripts/analyze_python.py:97-103 | analysing functions one after another only appends branches and edges, only advances counters, and keeps the builder invariant |
| Analysis.AnalyzeAllSnoc | scripts/analyze_python.py:97-103 | analysing a list followed by one more function is analysing the list and then that function on the resulting builder, so every function is analysed once, in the order the walk meets them |
| Analysis.Run | scripts/analyze_python.py:362-365 | the builder after a whole run satisfies the invariant: seen-set equals the edge list, no edge twice, per-key indices 0, 1, 2, ..., every edge between handed-out branches |
| Analysis.RunSnoc | scripts/analyze_python.py:97-103 | a run over no functions builds the empty graph, and a run over one more function is the shorter run's graph extended by that function's |
| Properties.EntryAnchor | scripts/analyze_python.py:97-101 | a function adds exactly one edge from an entry anchor, the last one, `next` from its qualified name to its first branch, iff its body produces a branch |
| Properties.RunUnique | scripts/analyze_python.py:163-185 | in one run branch ids are distinct, each (owner, kind) uses the indices 0, 1, 2, ... in order, and no edge triple is recorded twice |
| Sources.StmtSources | scripts/analyze_python.py:253-356 | every exit anchor a statement leaves, and every edge it adds that starts at a branch, sits on a branch that is neither a `return` nor a `raise` |
| Sources.TerminalsHaveNoSuccessors | scripts/analyze_python.py:310-324 | in one run no edge starts at a `return` or `raise` branch |
| Scenarios.GuardIfResult | scripts/analyze_python.py:300-305 | for `if x: return`, a `true` edge reaches the return and the conditional's only exit is `false` |
| Scenarios.GuardClause | scripts/analyze_python.py:296-305 | for `def f(): if x: return; y()`, the graph is exactly: `true` to the return, `false` to the call, and `next` from the entry anchor to the conditional |

## Left out

- Reading the request from standard input, `ast.parse` and the JSON output (`main`, lines 359-377): I/O. The model starts from an already-parsed syntax tree.
- Python source text is not modelled. A statement's source segment is a string given with it, and a missing segment is the empty string.
- The inventory part of the collector (functions, classes, imports, calls, semantic signatures, lines 24-25, 33-56, 64-95, 107-116): not part of the branch-flow graph.
- The `NodeVisitor` walk and `current_scope` (lines 43-55, 97-103, 105): replaced by a list of function definitions, each with its enclosing scope. Nested definitions appear in that list in the order the walk meets them.
- Bodies of loops, `try` and `with` statements: the source records these as one straight-line branch and never looks inside, and so does the model. Async variants are not separate constructors: `AsyncFor`/`AsyncWith` behave exactly as `For`/`With`.
- The flow type `dead` is reserved in the edge vocabulary but never produced by this code, so `FlowType` has only `next`, `true` and `false`.
- Branch ids and counter keys are strings (`owner::kind#idx`, `owner::kind`) in the source and structured values here. The two agree when owners are identifiers or dotted names, which cannot contain `::`.
- Constants other than `True`, `False` and `None` are all one literal, so `if 0:` or `if "":` stays unresolved by the oracle, as in the source. The model does not represent their Python truthiness.
- The qualified name of a function whose enclosing class is literally named `module` loses its prefix, as in the source (line 60). The model keeps that behaviour without stating it as a property.
- A function defined twice under the same qualified name (for example a property and its setter) shares one owner, so its branches continue the same index sequence. Both bodies add an anchor edge. The model allows this and states nothing more about it.
- Collector.CollectBlock: its contract states fall-through and the no-branch case only. Entry, exits and wiring are stated by the `Properties` lemmas about it.

=== FILE: analysis.dfy ===
/** Per-function graph construction and one analysis run over a list of functions. */
module Analysis {
  import opened Ast
  import opened Graph
  import opened Collector
  import opened Growth

  /** Scope name used outside any class or function. */
  const ModuleScope: string := "module"

  /** `scope.name`, or just `name` at module scope. */
  function QualifiedName(scope: string, name: string): (qn: string)
    ensures scope == ModuleScope ==> qn == name
    ensures scope != ModuleScope ==> |qn| == |scope| + 1 + |name| && qn[..|scope|] == scope && qn[|scope|..] == "." + name
  {
    if scope != ModuleScope then scope + "." + name else name
  }

  /** Builds the graph of function `name` declared in `scope`, and anchors it:
      one `next` edge from `owner::<qualified name>` to the body's entry, when
      the body produced one. */
  function AnalyzeFunction(scope: string, name: string, body: seq<Stmt>, st: Builder): (r: Builder)
    ensures var c := CollectBlock(QualifiedName(scope, name), body, st);
      && r.counter == c.st.counter && r.branches == c.st.branches
      && (c.entry.None? ==> r.flows == c.st.flows)
      && (c.entry.Some? ==>
            && Flow(ScopeEntry(QualifiedName(scope, name)), c.entry.value, Next) in r.seen
            && c.st.flows <= r.flows && |r.flows| <= |c.st.flows| + 1)
    ensures Extends(st, r)
    ensures Valid(st) ==> Valid(r)
  {
    var qn := QualifiedName(scope, name);
    var c := CollectBlock(qn, body, st);
    BlockGrows(qn, body, st);
    if c.entry.Some? then AddFlow(c.st, Flow(ScopeEntry(qn), c.entry.value, Next)) else c.st
  }

  /** A function definition as met by the tree walk: the scope it is declared in,
      its name and its body. */
  datatype FunctionDecl = FunctionDecl(scope: string, name: string, body: seq<Stmt>)

  /** Analyses the functions in the order the tree walk meets them. */
  function AnalyzeAll(fns: seq<FunctionDecl>, st: Builder): (r: Builder)
    ensures Extends(st, r)
    ensures Valid(st) ==> Valid(r)
    decreases |fns|
  {
    if |fns| == 0 then st
    else
      var next := AnalyzeFunction(fns[0].scope, fns[0].name, fns[0].body, st);
      var r := AnalyzeAll(fns[1..], next);
      ExtendsTransitive(st, next, r);
      r
  }

  /** Analysing one more function after a list is analysing the list, then that
      function on the resulting builder: every function is analysed, once, in
      list order. */
  lemma {:induction false} AnalyzeAllSnoc(fns: seq<FunctionDecl>, d: FunctionDecl, st: Builder)
    ensures AnalyzeAll(fns + [d], st) == AnalyzeFunction(d.scope, d.name, d.body, AnalyzeAll(fns, st))
    decreases |fns|
  {
    if |fns| == 0 {
      assert fns + [d] == [d];
      assert [d][1..] == [];
    } else {
      assert (fns + [d])[0] == fns[0];
      assert (fns + [d])[1..] == fns[1..] + [d];
      AnalyzeAllSnoc(fns[1..], d, AnalyzeFunction(fns[0].scope, fns[0].name, fns[0].body, st));
    }
  }

  /** One analysis run, from an empty builder: the invariant holds of its result. */
  function Run(fns: seq<FunctionDecl>): (r: Builder)
    ensures Valid(r)
  {
    EmptyValid();
    AnalyzeAll(fns, Empty)
  }

  /** A run over no functions builds nothing; a run over one more function
      extends the shorter run's graph by that function's graph. */
  lemma {:induction false} RunSnoc(fns: seq<FunctionDecl>, d: FunctionDecl)
    ensures Run([]) == Empty
    ensures Run(fns + [d]) == AnalyzeFunction(d.scope, d.name, d.body, Run(fns))
  {
    AnalyzeAllSnoc(fns, d, Empty);
  }
}

=== FILE: ast.dfy ===
/**
 The slice of Python's abstract syntax tree that the branch-flow builder looks at.
 Parsing is done by the caller: the builder receives this tree.
 */
module Ast {
  import opened Wrappers

  /** A literal constant, reduced to what the reachability oracle distinguishes:
      `True`/`False`, `None`, and every other constant (numbers, strings, ...). */
  datatype Literal = BoolLit(value: bool) | NoneLit | OtherLit

  /** Expressions, reduced to the shapes the builder inspects. */
  datatype Expr =
    | Constant(lit: Literal)
    | Not(operand: Expr)                 // `not operand`
    | Name(id: string)
    | Attribute(obj: Expr, attr: string) // `obj.attr`
    | Call(func: Expr)                   // `func(...)`; the arguments play no role
    | Await(awaited: Expr)               // `await awaited`
    | OtherExpr                          // any other expression

  /** Where a statement sits in the source. `segment` is the statement's source text
      (empty when it is not available); `line` and `endLine` are its line span. */
  datatype Span = Span(segment: string, line: nat, endLine: nat)

  /** Statements. Function definitions stand for both `def` and `async def`, `For`
      for both loop forms and `With` for both `with` forms. The bodies of loops,
      `try` and `with` are not part of the graph and are therefore not kept. */
  datatype Stmt =
    | FunctionDef(span: Span, name: string)
    | ClassDef(span: Span, name: string)
    | If(span: Span, test: Expr, body: seq<Stmt>, orelse: seq<Stmt>)
    | Return(span: Span, hasValue: bool)
    | Raise(span: Span)
    | ExprStmt(span: Span, value: Expr)
    | Assign(span: Span, value: Expr)
    | AnnAssign(span: Span, annValue: Option<Expr>)
    | AugAssign(span: Span, value: Expr)
    | For(span: Span)
    | While(span: Span)
    | Try(span: Span)                 // `try/except`; `try/except*` is an OtherStmt
    | With(span: Span)
    | OtherStmt(span: Span)           // pass, break, import, del, assert, match, try/except*, ...
}

=== FILE: collector.dfy ===
/** The branch-flow graph builder proper: statement and block processing. */
module Collector {
  import opened Wrappers
  import opened Ast
  import opened Snippet
  import opened Oracle
  import opened FallThrough
  import opened Unique
  import opened Graph

  /** What processing a statement or a block yields: its entry branch (if it
      produced one), its pending exit anchors, whether it falls through, and
      the builder afterwards. */
  datatype Collected = Collected(entry: Option<BranchId>, exits: seq<Exit>, falls: bool, st: Builder)

  /** A conditional half-way through: its branch, which sides the oracle leaves
      reachable, and both processed sides, before the fork edges are added.
      `elseC.st` is the builder after both sides. */
  datatype Fork = Fork(
    cond: BranchId,
    thenReachable: bool,
    elseReachable: bool,
    hasElse: bool,
    thenC: Collected,
    elseC: Collected)

  /** `e` is a call, or a call seen through one `await`. */
  predicate IsCallOrAwaitedCall(e: Expr) {
    e.Call? || (e.Await? && e.awaited.Call?)
  }

  /** The call a statement consists of: the value of an expression statement or
      of a plain, annotated or augmented assignment, seen through one `await`. */
  function ExtractStmtCall(s: Stmt): (r: Option<Expr>)
    ensures r.Some? ==> r.value.Call?
    ensures r.Some? <==>
      || ((s.ExprStmt? || s.Assign? || s.AugAssign?) && IsCallOrAwaitedCall(s.value))
      || (s.AnnAssign? && s.annValue.Some? && IsCallOrAwaitedCall(s.annValue.value))
    ensures (s.ExprStmt? || s.Assign? || s.AugAssign?) && s.value.Call? ==> r == Some(s.value)
    ensures (s.ExprStmt? || s.Assign? || s.AugAssign?) && s.value.Await? ==> r == (if s.value.awaited.Call? then Some(s.value.awaited) else None)
    ensures s.AnnAssign? && s.annValue.Some? && s.annValue.value.Call? ==> r == s.annValue
    ensures s.AnnAssign? && s.annValue.Some? && s.annValue.value.Await? ==>
      r == (if s.annValue.value.awaited.Call? then Some(s.annValue.value.awaited) else None)
  {
    var value :=
      match s
      case ExprStmt(_, v) => Some(v)
      case Assign(_, v) => Some(v)
      case AnnAssign(_, v) => v
      case AugAssign(_, v) => Some(v)
      case _ => None;
    match value
    case None => None
    case Some(v) =>
      var unwrapped := if v.Await? then v.awaited else v;
      if unwrapped.Call? then Some(unwrapped) else None
  }

  /** The callee recorded for a call: a bare name, the attribute of a method
      call, or "call" for anything else. */
  function CallName(call: Expr): (name: string)
    requires call.Call?
    ensures call.func.Name? ==> name == call.func.id
    ensures call.func.Attribute? ==> name == call.func.attr
    ensures !call.func.Name? && !call.func.Attribute? ==> name == "call"
  {
    match call.func
    case Name(id) => id
    case Attribute(_, attr) => attr
    case _ => "call"
  }

  /** Statements recorded as one branch whose only exit is `next`. */
  predicate IsStraightLine(s: Stmt) {
    ExtractStmtCall(s).Some? || s.For? || s.While? || s.Try? || s.With?
  }

  /** Statements that produce a branch. */
  predicate EmitsBranch(s: Stmt) {
    s.If? || s.Return? || s.Raise? || IsStraightLine(s)
  }

  /** `r` records exactly one new branch: the next `kind` branch of `owner`,
      spanning `span`'s lines, with that snippet and callee; no edge is added. */
  predicate RecordsOne(owner: string, kind: Kind, span: Span, snippet: string, callee: Option<string>, st: Builder, r: Collected) {
    && r.entry == Some(BranchId(owner, kind, Count(st.counter, (owner, kind))))
    && r.st.branches == st.branches + [Branch(r.entry.value, span.line, span.endLine, snippet, callee)]
    && r.st.flows == st.flows
  }

  /** The callee recorded with a call branch: none for an empty name. */
  function CalleeField(callee: string): Option<string> {
    if callee != "" then Some(callee) else None
  }

  /** Records a straight-line branch: one exit, `next`; falls through. */
  function Straight(owner: string, kind: Kind, span: Span, snippet: string, callee: string, st: Builder): (r: Collected)
    ensures r.entry.Some? && r.exits == [Exit(r.entry.value, Next)] && r.falls
    ensures RecordsOne(owner, kind, span, snippet, CalleeField(callee), st, r)
  {
    var e := AddBranch(st, owner, kind, span.line, span.endLine, snippet, callee);
    Collected(Some(e.id), [Exit(e.id, Next)], true, e.st)
  }

  /** Records a terminal branch: no exits; does not fall through. */
  function Terminal(owner: string, kind: Kind, span: Span, snippet: string, st: Builder): (r: Collected)
    ensures r.entry.Some? && r.exits == [] && !r.falls
    ensures RecordsOne(owner, kind, span, snippet, None, st, r)
  {
    var e := AddBranch(st, owner, kind, span.line, span.endLine, snippet, "");
    Collected(Some(e.id), [], false, e.st)
  }

  /** Processes one statement of `owner`'s body. */
  function CollectStmt(owner: string, s: Stmt, st: Builder): (r: Collected)
    ensures r.entry.Some? <==> EmitsBranch(s)
    ensures r.entry.None? ==> r.falls && r.exits == [] && r.st == st
    ensures (s.Return? || s.Raise?) ==> r.exits == [] && !r.falls
    ensures IsStraightLine(s) ==> r.entry.Some? && r.exits == [Exit(r.entry.value, Next)] && r.falls
    ensures s.If? && |s.orelse| == 0 ==>
      r.entry.Some? && r.falls && r.exits == [Exit(r.entry.value, if BlockFalls(s.body) then Next else OnFalse)]
    decreases s, 2
  {
    if s.If? then CollectIf(owner, s, st) else CollectLeaf(owner, s, st)
  }

  /** Processes a statement other than a conditional: nothing nested in it
      reaches the graph. */
  function CollectLeaf(owner: string, s: Stmt, st: Builder): (r: Collected)
    requires !s.If?
    ensures r.entry.Some? <==> EmitsBranch(s)
    ensures r.entry.None? ==> r.falls && r.exits == [] && r.st == st
    ensures (s.Return? || s.Raise?) ==> r.exits == [] && !r.falls
    ensures IsStraightLine(s) ==> r.entry.Some? && r.exits == [Exit(r.entry.value, Next)] && r.falls
    ensures s.Return? ==>
      RecordsOne(owner, ReturnKind, s.span, SnippetOr(s.span.segment, if s.hasValue then "return ..." else "return"), None, st, r)
    ensures s.Raise? ==> RecordsOne(owner, RaiseKind, s.span, SnippetOr(s.span.segment, "raise ..."), None, st, r)
  {
    if s.FunctionDef? || s.ClassDef? then Collected(None, [], true, st)
    else if s.Return? then
      Terminal(owner, ReturnKind, s.span, SnippetOr(s.span.segment, if s.hasValue then "return ..." else "return"), st)
    else if s.Raise? then
      Terminal(owner, RaiseKind, s.span, SnippetOr(s.span.segment, "raise ..."), st)
    else CollectSimple(owner, s, st)
  }

  /** Processes a conditional. */
  function CollectIf(owner: string, s: Stmt, st: Builder): (r: Collected)
    requires s.If?
    ensures r.entry == Some(BranchId(owner, HeaderKind(s), Count(st.counter, (owner, HeaderKind(s)))))
    ensures |s.orelse| == 0 ==>
      r.falls && r.exits == [Exit(r.entry.value, if BlockFalls(s.body) then Next else OnFalse)]
    decreases s, 1
  {
    var f := ForkOf(owner, s, st);
    var wired := WireFork(f);
    if |s.orelse| == 0 then
      // Without an else the conditional continues from itself: `next` when
      // its body can fall through, `false` past a terminal (guard) body.
      Collected(Some(f.cond), [Exit(f.cond, if f.thenC.falls then Next else OnFalse)], true, wired)
    else
      var falls := (f.thenReachable && f.thenC.falls) || (f.elseReachable && f.elseC.falls);
      Collected(Some(f.cond), Dedup(ForkExits(f)), falls, wired)
  }

  /** Processes a statement that is neither a definition, a conditional, a
      `return` nor a `raise`. */
  function CollectSimple(owner: string, s: Stmt, st: Builder): (r: Collected)
    requires !s.FunctionDef? && !s.ClassDef? && !s.If? && !s.Return? && !s.Raise?
    ensures r.entry.Some? <==> IsStraightLine(s)
    ensures r.entry.Some? ==> r.exits == [Exit(r.entry.value, Next)] && r.falls
    ensures r.entry.None? ==> r.falls && r.exits == [] && r.st == st
    ensures ExtractStmtCall(s).Some? ==>
      var callee := CallName(ExtractStmtCall(s).value);
      RecordsOne(owner, CallKind, s.span, SnippetOr(s.span.segment, callee + "(...)"), CalleeField(callee), st, r)
    ensures ExtractStmtCall(s).None? && s.For? ==>
      RecordsOne(owner, ForKind, s.span, SnippetOr(s.span.segment, "for ...:"), None, st, r)
    ensures ExtractStmtCall(s).None? && s.While? ==>
      RecordsOne(owner, WhileKind, s.span, SnippetOr(s.span.segment, "while ...:"), None, st, r)
    ensures ExtractStmtCall(s).None? && s.Try? ==> RecordsOne(owner, TryKind, s.span, "try:", None, st, r)
    ensures ExtractStmtCall(s).None? && s.With? ==>
      RecordsOne(owner, WithKind, s.span, SnippetOr(s.span.segment, "with ...:"), None, st, r)
  {
    var call := ExtractStmtCall(s);
    if call.Some? then
      var callee := CallName(call.value);
      Straight(owner, CallKind, s.span, SnippetOr(s.span.segment, callee + "(...)"), callee, st)
    else if s.For? then
      Straight(owner, ForKind, s.span, SnippetOr(s.span.segment, "for ...:"), "", st)
    else if s.While? then
      Straight(owner, WhileKind, s.span, SnippetOr(s.span.segment, "while ...:"), "", st)
    else if s.Try? then
      Straight(owner, TryKind, s.span, "try:", "", st)
    else if s.With? then
      Straight(owner, WithKind, s.span, SnippetOr(s.span.segment, "with ...:"), "", st)
    else
      Collected(None, [], StmtFalls(s), st)
  }

  /** The snippet recorded for a conditional. */
  function IfSnippet(s: Stmt): string
    requires s.If?
  {
    SnippetOr(s.span.segment, "if ...:")
  }

  /** The kind recorded for a conditional: `elif` when its snippet says so. */
  function HeaderKind(s: Stmt): (k: Kind)
    requires s.If?
    ensures k == ElifKind || k == IfKind
  {
    if IsElifHeader(IfSnippet(s)) then ElifKind else IfKind
  }

  /** Records the conditional's own branch. */
  function IfHeader(owner: string, s: Stmt, st: Builder): Emitted
    requires s.If?
  {
    AddBranch(st, owner, HeaderKind(s), s.span.line, s.span.endLine, IfSnippet(s), "")
  }

  /** Records a conditional's branch and processes both of its sides. */
  function ForkOf(owner: string, s: Stmt, st: Builder): (f: Fork)
    requires s.If?
    ensures f.cond == BranchId(owner, HeaderKind(s), Count(st.counter, (owner, HeaderKind(s))))
    ensures f.thenReachable <==> KnownTruth(s.test) != Some(false)
    ensures f.elseReachable <==> KnownTruth(s.test) != Some(true)
    ensures f.hasElse <==> |s.orelse| > 0
    ensures f.thenC == CollectBlock(owner, s.body, IfHeader(owner, s, st).st)
    ensures |s.orelse| > 0 ==> f.elseC == CollectBlock(owner, s.orelse, f.thenC.st)
    ensures |s.orelse| == 0 ==> f.elseC == Collected(None, [], true, f.thenC.st)
    ensures f.thenC.falls == BlockFalls(s.body)
    ensures f.elseC.falls == BlockFalls(s.orelse)
    decreases s, 0
  {
    var e := IfHeader(owner, s, st);
    var known := KnownTruth(s.test);
    var thenC := CollectBlock(owner, s.body, e.st);
    var elseC :=
      if |s.orelse| > 0 then CollectBlock(owner, s.orelse, thenC.st)
      else Collected(None, [], true, thenC.st);
    Fork(e.id, known != Some(false), known != Some(true), |s.orelse| > 0, thenC, elseC)
  }

  /** An edge the fork itself may add: `true` into the reachable then-side's
      entry, `false` into the reachable else-side's entry. */
  predicate ForkEdge(f: Fork, fl: Flow) {
    fl.source == At(f.cond) &&
    ((fl.flowType == OnTrue && f.thenReachable && f.thenC.entry == Some(fl.target)) ||
     (fl.flowType == OnFalse && f.elseReachable && f.elseC.entry == Some(fl.target)))
  }

  /** The fork edges a conditional asks for, in the order it asks: `true`
      into the reachable then-side's entry, then `false` into the reachable
      else-side's entry. */
  function ForkWires(f: Fork): seq<Flow> {
    (if f.thenC.entry.Some? && f.thenReachable then [Flow(At(f.cond), f.thenC.entry.value, OnTrue)] else []) +
    (if f.elseC.entry.Some? && f.elseReachable then [Flow(At(f.cond), f.elseC.entry.value, OnFalse)] else [])
  }

  /** Adds the fork edges of a conditional, suppressing those into an
      unreachable side. */
  function WireFork(f: Fork): (r: Builder)
    ensures r.flows == f.elseC.st.flows + DedupAfter(ForkWires(f), f.elseC.st.seen)
    ensures r.counter == f.elseC.st.counter && r.branches == f.elseC.st.branches
    ensures f.elseC.st.flows <= r.flows
    ensures forall i | |f.elseC.st.flows| <= i < |r.flows| :: ForkEdge(f, r.flows[i])
    ensures f.thenReachable && f.thenC.entry.Some? ==> Flow(At(f.cond), f.thenC.entry.value, OnTrue) in r.seen
    ensures f.elseReachable && f.elseC.entry.Some? ==> Flow(At(f.cond), f.elseC.entry.value, OnFalse) in r.seen
    ensures Valid(f.elseC.st) && Allocated(f.cond, f.elseC.st.counter) &&
            (f.thenC.entry.Some? ==> Allocated(f.thenC.entry.value, f.elseC.st.counter)) &&
            (f.elseC.entry.Some? ==> Allocated(f.elseC.entry.value, f.elseC.st.counter))
            ==> Valid(r)
  {
    var st1 :=
      if f.thenC.entry.Some? && f.thenReachable
      then AddFlow(f.elseC.st, Flow(At(f.cond), f.thenC.entry.value, OnTrue))
      else f.elseC.st;
    if f.elseC.entry.Some? && f.elseReachable
    then AddFlow(st1, Flow(At(f.cond), f.elseC.entry.value, OnFalse))
    else st1
  }

  /** The exit anchors of a conditional, before deduplication: the exits of
      each reachable side, plus an anchor on the conditional itself for a
      reachable side that produced no branch yet falls through. */
  function ForkExits(f: Fork): (r: seq<Exit>)
    ensures forall x | x in r ::
      || (x in f.thenC.exits && f.thenReachable)
      || (x in f.elseC.exits && f.elseReachable)
      || (&& x.source == f.cond
          && (x.flowType == OnTrue ==> f.thenReachable && f.thenC.entry.None? && f.thenC.falls)
          && (x.flowType != OnTrue ==> f.elseReachable && f.elseC.entry.None? && f.elseC.falls)
          && (x.flowType == Next ==> !f.hasElse))
    ensures f.thenReachable ==> forall x | x in f.thenC.exits :: x in r
    ensures f.elseReachable ==> forall x | x in f.elseC.exits :: x in r
    ensures var sides := (if f.thenReachable then f.thenC.exits else []) + (if f.elseReachable then f.elseC.exits else []);
      sides <= r && |r| <= |sides| + 2
    ensures f.thenReachable && f.thenC.entry.None? && f.thenC.falls ==> Exit(f.cond, OnTrue) in r
    ensures f.elseReachable && f.elseC.entry.None? && f.elseC.falls ==>
      Exit(f.cond, if !f.hasElse && f.thenReachable && f.thenC.falls then Next else OnFalse) in r
    ensures var sides := (if f.thenReachable then f.thenC.exits else []) + (if f.elseReachable then f.elseC.exits else []);
      f.thenReachable && f.thenC.entry.None? && f.thenC.falls ==> |sides| < |r| && r[|sides|] == Exit(f.cond, OnTrue)
    ensures f.elseReachable && f.elseC.entry.None? && f.elseC.falls ==>
      |r| > 0 && r[|r| - 1] == Exit(f.cond, if !f.hasElse && f.thenReachable && f.thenC.falls then Next else OnFalse)
  {
    (if f.thenReachable then f.thenC.exits else []) +
    (if f.elseReachable then f.elseC.exits else []) +
    (if f.thenC.entry.None? && f.thenC.falls && f.thenReachable then [Exit(f.cond, OnTrue)] else []) +
    (if f.elseC.entry.None? && f.elseC.falls && f.elseReachable
     then [Exit(f.cond, if !f.hasElse && f.thenReachable && f.thenC.falls then Next else OnFalse)]
     else [])
  }

  /** Processes a block of `owner`'s body in order, wiring every pending exit
      anchor to the next branch produced. */
  function CollectBlock(owner: string, ss: seq<Stmt>, st: Builder): (r: Collected)
    ensures r.falls == BlockFalls(ss)
    ensures r.entry.None? ==> r.exits == [] && r.st == st
    decreases ss, 3
  {
    if |ss| == 0 then Collected(None, [], BlockFalls(ss), st)
    else
      var prev := CollectBlock(owner, ss[..|ss| - 1], st);
      var c := CollectStmt(owner, ss[|ss| - 1], prev.st);
      if c.entry.Some? then
        var entry := if prev.entry.Some? then prev.entry else c.entry;
        Collected(entry, c.exits, BlockFalls(ss), Connect(prev.exits, c.entry.value, c.st))
      else if !c.falls then
        // Never taken: a statement that produces no branch always falls through.
        Collected(prev.entry, [], BlockFalls(ss), c.st)
      else
        Collected(prev.entry, prev.exits, BlockFalls(ss), c.st)
  }
}

=== FILE: fallthrough.dfy ===
/** Syntactic fall-through analysis: can control run off the end of a
    statement (or block) into the next one? */
module FallThrough {
  import opened Ast

  /** `return` and `raise` never fall through; an `if` falls through when its
      then-block does or its else-block does (a missing else counts as falling
      through); every other statement falls through. */
  function StmtFalls(s: Stmt): (r: bool)
    ensures (s.Return? || s.Raise?) ==> !r
    ensures !s.If? && !s.Return? && !s.Raise? ==> r
    ensures s.If? && |s.orelse| == 0 ==> r
  {
    match s
    case Return(_, _) => false
    case Raise(_) => false
    case If(_, _, body, orelse) =>
      var thenFalls := BlockFalls(body);
      var elseFalls := if |orelse| > 0 then BlockFalls(orelse) else true;
      thenFalls || elseFalls
    case _ => true
  }

  /** Walks the block in order while the path is still open: the path stays
      open after the last statement only if it stayed open after every one. */
  function BlockFalls(ss: seq<Stmt>): bool
  {
    if |ss| == 0 then true
    else
      var pathOpen := BlockFalls(ss[..|ss| - 1]);
      pathOpen && StmtFalls(ss[|ss| - 1])
  }

  /** A block falls through iff every statement in it falls through. */
  lemma {:induction false} BlockFallsIffEvery(ss: seq<Stmt>)
    ensures BlockFalls(ss) <==> forall i | 0 <= i < |ss| :: StmtFalls(ss[i])
  {
    if |ss| > 0 {
      var prefix := ss[..|ss| - 1];
      BlockFallsIffEvery(prefix);
      assert forall i | 0 <= i < |prefix| :: prefix[i] == ss[i];
    }
  }

  /** A block holding a `return` or `raise` anywhere does not fall through. */
  lemma TerminalBlocksDoNotFall(ss: seq<Stmt>, i: nat)
    requires i < |ss| && (ss[i].Return? || ss[i].Raise?)
    ensures !BlockFalls(ss)
  {
    BlockFallsIffEvery(ss);
  }

  /** An `if` falls through iff every statement of its then-block falls through
      or every statement of its else-block does; without an else it always does. */
  lemma IfFallsIffEitherSide(s: Stmt)
    requires s.If?
    ensures StmtFalls(s) <==>
      (forall i | 0 <= i < |s.body| :: StmtFalls(s.body[i])) ||
      (forall j | 0 <= j < |s.orelse| :: StmtFalls(s.orelse[j]))
  {
    BlockFallsIffEvery(s.body);
    BlockFallsIffEvery(s.orelse);
  }
}

=== FILE: graph.dfy ===
/** The branch-flow graph under construction: branch ids, the per-(owner, kind)
    index counter, the edge list and the set that deduplicates it. */
module Graph {
  import opened Wrappers
  import opened Unique

  /** The kinds of decision point a branch records. */
  datatype Kind = IfKind | ElifKind | ForKind | WhileKind | TryKind | WithKind | CallKind | ReturnKind | RaiseKind

  /** Edge labels: unconditional continuation, or a conditional fork taken on true/false. */
  datatype FlowType = Next | OnTrue | OnFalse

  /** The id `owner::kind#idx` of a branch, kept structured. */
  datatype BranchId = BranchId(owner: string, kind: Kind, idx: nat)

  /** The counter is kept per (owner, kind). */
  type CounterKey = (string, Kind)

  function Key(id: BranchId): CounterKey {
    (id.owner, id.kind)
  }

  /** An edge endpoint: the synthetic entry anchor `owner::<scope>` of a function, or a branch. */
  datatype Node = ScopeEntry(scope: string) | At(id: BranchId)

  datatype Flow = Flow(source: Node, target: BranchId, flowType: FlowType)

  /** An exit anchor: an outgoing edge of `source` whose target is not known yet. */
  datatype Exit = Exit(source: BranchId, flowType: FlowType)

  /** A recorded branch; `callee` is present for call branches only. */
  datatype Branch = Branch(id: BranchId, start: nat, endLine: nat, snippet: string, callee: Option<string>)

  /** The state threaded through one analysis run. */
  datatype Builder = Builder(
    counter: map<CounterKey, nat>,
    branches: seq<Branch>,
    flows: seq<Flow>,
    seen: set<Flow>)

  const Empty: Builder := Builder(map[], [], [], {})

  /** The counter's value for `key`; a missing key counts as 0. */
  function Count(counter: map<CounterKey, nat>, key: CounterKey): nat {
    if key in counter then counter[key] else 0
  }

  /** An index drawn from the counter, and the counter after the draw. */
  datatype Drawn = Drawn(idx: nat, counter: map<CounterKey, nat>)

  /** Hands out the next index for (owner, kind) and advances only that key. */
  function NextBranchIdx(counter: map<CounterKey, nat>, owner: string, kind: Kind): (r: Drawn)
    ensures r.idx == Count(counter, (owner, kind))
    ensures Count(r.counter, (owner, kind)) == r.idx + 1
    ensures forall k | k != (owner, kind) :: Count(r.counter, k) == Count(counter, k)
  {
    var idx := Count(counter, (owner, kind));
    Drawn(idx, counter[(owner, kind) := idx + 1])
  }

  /** The indices handed out by `n` successive draws for the same key. */
  function Draws(counter: map<CounterKey, nat>, owner: string, kind: Kind, n: nat): seq<nat>
    decreases n
  {
    if n == 0 then []
    else
      var d := NextBranchIdx(counter, owner, kind);
      [d.idx] + Draws(d.counter, owner, kind, n - 1)
  }

  /** Successive draws for one key return c, c + 1, c + 2, ... where c is its
      current count (0 for a fresh key). */
  lemma {:induction false} DrawsCountUp(counter: map<CounterKey, nat>, owner: string, kind: Kind, n: nat)
    ensures Draws(counter, owner, kind, n) == seq(n, i => Count(counter, (owner, kind)) + i)
    decreases n
  {
    if n > 0 {
      var c := Count(counter, (owner, kind));
      var d := NextBranchIdx(counter, owner, kind);
      DrawsCountUp(d.counter, owner, kind, n - 1);
      var rest := seq(n - 1, i => c + 1 + i);
      assert Draws(d.counter, owner, kind, n - 1) == rest;
      assert [c] + rest == seq(n, i => c + i);
    }
  }

  /** 0, 1, ..., n - 1. */
  function UpTo(n: nat): seq<nat> {
    if n == 0 then [] else UpTo(n - 1) + [n - 1]
  }

  /** The indices of the branches recorded for `key`, in recording order. */
  function IndicesOf(branches: seq<Branch>, key: CounterKey): seq<nat> {
    if |branches| == 0 then []
    else
      var last := branches[|branches| - 1];
      IndicesOf(branches[..|branches| - 1], key) + (if Key(last.id) == key then [last.id.idx] else [])
  }

  /** `id` has been handed out by `counter`. */
  predicate Allocated(id: BranchId, counter: map<CounterKey, nat>) {
    id.idx < Count(counter, Key(id))
  }

  /** Both ends of `f` are the entry anchor or branches handed out by `counter`. */
  predicate FlowAllocated(f: Flow, counter: map<CounterKey, nat>) {
    Allocated(f.target, counter) && (f.source.At? ==> Allocated(f.source.id, counter))
  }

  /** The builder invariant: the seen-set is exactly the edge list, which holds
      no triple twice; the branches recorded for every (owner, kind) carry the
      indices 0, 1, 2, ... in order and the counter is their number; and every
      edge connects handed-out branches (or starts at an entry anchor). */
  ghost predicate Valid(st: Builder) {
    && (forall f :: f in st.seen <==> f in st.flows)
    && Distinct(st.flows)
    && (forall i | 0 <= i < |st.branches| :: Allocated(st.branches[i].id, st.counter))
    && (forall i, j | 0 <= i < j < |st.branches| && Key(st.branches[i].id) == Key(st.branches[j].id) ::
          st.branches[i].id.idx < st.branches[j].id.idx)
    && (forall key :: IndicesOf(st.branches, key) == UpTo(Count(st.counter, key)))
    && (forall f | f in st.flows :: FlowAllocated(f, st.counter))
  }

  lemma EmptyValid()
    ensures Valid(Empty)
  {
  }

  /** Branch ids of a valid builder are pairwise distinct. */
  lemma IdsDistinct(st: Builder)
    requires Valid(st)
    ensures forall i, j | 0 <= i < j < |st.branches| :: st.branches[i].id != st.branches[j].id
  {
  }

  /** Records an edge unless the same triple was recorded before. */
  function AddFlow(st: Builder, f: Flow): (r: Builder)
    ensures r.counter == st.counter && r.branches == st.branches
    ensures st.flows <= r.flows && st.seen <= r.seen && f in r.seen
    ensures f in st.seen ==> r == st
    ensures f !in st.seen ==> r.flows == st.flows + [f] && r.seen == st.seen + {f}
    ensures Valid(st) && FlowAllocated(f, st.counter) ==> Valid(r) && f in r.flows
  {
    if f in st.seen then st
    else st.(flows := st.flows + [f], seen := st.seen + {f})
  }

  /** A recorded branch and the builder after recording it. */
  datatype Emitted = Emitted(id: BranchId, st: Builder)

  /** Records a branch under the next index for (owner, kind); an empty callee is omitted. */
  function AddBranch(st: Builder, owner: string, kind: Kind, start: nat, endLine: nat, snippet: string, callee: string): (r: Emitted)
    ensures r.id == BranchId(owner, kind, Count(st.counter, (owner, kind)))
    ensures r.st.branches == st.branches + [Branch(r.id, start, endLine, snippet, if callee != "" then Some(callee) else None)]
    ensures r.st.flows == st.flows && r.st.seen == st.seen
    ensures Count(r.st.counter, (owner, kind)) == r.id.idx + 1
    ensures forall k | k != (owner, kind) :: Count(r.st.counter, k) == Count(st.counter, k)
    ensures Valid(st) ==> Valid(r.st)
  {
    var drawn := NextBranchIdx(st.counter, owner, kind);
    var id := BranchId(owner, kind, drawn.idx);
    var branch := Branch(id, start, endLine, snippet, if callee != "" then Some(callee) else None);
    var r := Emitted(id, st.(counter := drawn.counter, branches := st.branches + [branch]));
    AddBranchKeepsValid(st, r.st, branch);
    r
  }

  lemma AddBranchKeepsValid(st: Builder, st': Builder, b: Branch)
    requires b.id.idx == Count(st.counter, Key(b.id))
    requires Count(st'.counter, Key(b.id)) == b.id.idx + 1
    requires forall k | k != Key(b.id) :: Count(st'.counter, k) == Count(st.counter, k)
    requires st'.branches == st.branches + [b] && st'.flows == st.flows && st'.seen == st.seen
    ensures Valid(st) ==> Valid(st')
  {
    if Valid(st) {
      var n := |st.branches|;
      assert forall k :: Count(st.counter, k) <= Count(st'.counter, k);
      forall i | 0 <= i < |st'.branches|
        ensures Allocated(st'.branches[i].id, st'.counter)
      {
        if i < n {
          assert st'.branches[i] == st.branches[i];
        }
      }
      forall i, j | 0 <= i < j < |st'.branches| && Key(st'.branches[i].id) == Key(st'.branches[j].id)
        ensures st'.branches[i].id.idx < st'.branches[j].id.idx
      {
        assert st'.branches[i] == st.branches[i];
        if j < n {
          assert st'.branches[j] == st.branches[j];
        }
      }
      forall key
        ensures IndicesOf(st'.branches, key) == UpTo(Count(st'.counter, key))
      {
        assert st'.branches[..|st'.branches| - 1] == st.branches;
      }
      forall f | f in st'.flows
        ensures FlowAllocated(f, st'.counter)
      {
        assert FlowAllocated(f, st.counter);
      }
    }
  }

  /** The edges that wire each pending exit anchor into `target`, in order. */
  function Wires(pending: seq<Exit>, target: BranchId): seq<Flow> {
    seq(|pending|, i requires 0 <= i < |pending| => Flow(At(pending[i].source), target, pending[i].flowType))
  }

  lemma WiresCons(pending: seq<Exit>, target: BranchId)
    requires |pending| > 0
    ensures Wires(pending, target) ==
      [Flow(At(pending[0].source), target, pending[0].flowType)] + Wires(pending[1..], target)
  {
  }

  /** Connects every pending exit anchor to `target`, each with its own flow type. */
  function Connect(pending: seq<Exit>, target: BranchId, st: Builder): (r: Builder)
    ensures r.flows == st.flows + DedupAfter(Wires(pending, target), st.seen)
    ensures r.counter == st.counter && r.branches == st.branches
    ensures st.flows <= r.flows && st.seen <= r.seen
    ensures forall i | |st.flows| <= i < |r.flows| ::
      r.flows[i].target == target && r.flows[i].source.At? &&
      Exit(r.flows[i].source.id, r.flows[i].flowType) in pending
    ensures forall x | x in pending :: Flow(At(x.source), target, x.flowType) in r.seen
    ensures Valid(st) && Allocated(target, st.counter) && (forall x | x in pending :: Allocated(x.source, st.counter))
      ==> Valid(r)
    decreases |pending|
  {
    if |pending| == 0 then st
    else
      WiresCons(pending, target);
      Connect(pending[1..], target, AddFlow(st, Flow(At(pending[0].source), target, pending[0].flowType)))
  }
}

=== FILE: growth.dfy ===
/** The frame every processing step respects: branches and edges are only
    appended, counters only advance, every branch and exit anchor a step
    reports was recorded by that step, and the builder invariant is kept. */
module Growth {
  import opened Wrappers
  import opened Ast
  import opened Snippet
  import opened Unique
  import opened Graph
  import opened Collector

  /** `b` is `a` with branches and edges appended and counters advanced. */
  ghost predicate Extends(a: Builder, b: Builder) {
    && a.branches <= b.branches
    && a.flows <= b.flows
    && (forall k :: Count(a.counter, k) <= Count(b.counter, k))
  }

  /** `id` was handed out after `a` and by `b`. */
  ghost predicate Fresh(id: BranchId, a: Builder, b: Builder) {
    Count(a.counter, Key(id)) <= id.idx < Count(b.counter, Key(id))
  }

  /** What processing from builder `st` may do to reach `r`. The entry, when
      present, is the first branch recorded; every exit anchor and the source
      of every new edge is a branch recorded by this step. */
  ghost predicate Grows(st: Builder, r: Collected) {
    && Extends(st, r.st)
    && (r.entry.Some? <==> |st.branches| < |r.st.branches|)
    && (r.entry.Some? ==> r.entry.value == r.st.branches[|st.branches|].id && Fresh(r.entry.value, st, r.st))
    && (forall x | x in r.exits :: Fresh(x.source, st, r.st))
    && (forall i | |st.flows| <= i < |r.st.flows| ::
          r.st.flows[i].source.At? && Fresh(r.st.flows[i].source.id, st, r.st))
    && (Valid(st) ==> Valid(r.st))
  }

  lemma ExtendsTransitive(a: Builder, b: Builder, c: Builder)
    requires Extends(a, b) && Extends(b, c)
    ensures Extends(a, c)
  {
    assert a.branches <= c.branches by {
      assert c.branches[..|a.branches|] == b.branches[..|b.branches|][..|a.branches|];
    }
    assert a.flows <= c.flows by {
      assert c.flows[..|a.flows|] == b.flows[..|b.flows|][..|a.flows|];
    }
  }

  /** A freshly recorded branch is the one added at the end. */
  lemma AddBranchGrows(st: Builder, owner: string, kind: Kind, start: nat, endLine: nat, snippet: string, callee: string)
    ensures var e := AddBranch(st, owner, kind, start, endLine, snippet, callee);
      && Extends(st, e.st)
      && Fresh(e.id, st, e.st)
      && |e.st.branches| == |st.branches| + 1
      && e.st.branches[|st.branches|].id == e.id
      && (Valid(st) ==> Valid(e.st))
  {
  }

  lemma {:induction false} StmtGrows(owner: string, s: Stmt, st: Builder)
    ensures Grows(st, CollectStmt(owner, s, st))
    decreases s, 3
  {
    if s.If? {
      IfGrows(owner, s, st);
    } else {
      LeafGrows(owner, s, st);
    }
  }

  lemma LeafGrows(owner: string, s: Stmt, st: Builder)
    requires !s.If?
    ensures Grows(st, CollectLeaf(owner, s, st))
  {
    match s
    case Return(span, hasValue) =>
      AddBranchGrows(st, owner, ReturnKind, span.line, span.endLine,
        SnippetOr(span.segment, if hasValue then "return ..." else "return"), "");
    case Raise(span) =>
      AddBranchGrows(st, owner, RaiseKind, span.line, span.endLine, SnippetOr(span.segment, "raise ..."), "");
    case FunctionDef(_, _) =>
    case ClassDef(_, _) =>
    case _ => SimpleGrows(owner, s, st);
  }

  lemma SimpleGrows(owner: string, s: Stmt, st: Builder)
    requires !s.FunctionDef? && !s.ClassDef? && !s.If? && !s.Return? && !s.Raise?
    ensures Grows(st, CollectSimple(owner, s, st))
  {
    var call := ExtractStmtCall(s);
    var seg := s.span.segment;
    var l, e := s.span.line, s.span.endLine;
    if call.Some? {
      var callee := CallName(call.value);
      AddBranchGrows(st, owner, CallKind, l, e, SnippetOr(seg, callee + "(...)"), callee);
    } else if s.For? {
      AddBranchGrows(st, owner, ForKind, l, e, SnippetOr(seg, "for ...:"), "");
    } else if s.While? {
      AddBranchGrows(st, owner, WhileKind, l, e, SnippetOr(seg, "while ...:"), "");
    } else if s.Try? {
      AddBranchGrows(st, owner, TryKind, l, e, "try:", "");
    } else if s.With? {
      AddBranchGrows(st, owner, WithKind, l, e, SnippetOr(seg, "with ...:"), "");
    }
  }

  /** An id handed out after `mid` was also handed out after any earlier `a`,
      and differs from the id `mid` handed out last for its key. */
  lemma FreshBefore(id: BranchId, a: Builder, mid: Builder, b: Builder, last: BranchId)
    requires Extends(a, mid) && Fresh(id, mid, b)
    requires Count(mid.counter, Key(last)) == last.idx + 1
    ensures Fresh(id, a, b) && id != last
  {
  }

  /** Processing both sides of a conditional, starting from `st1`. */
  lemma {:induction false} SidesGrow(owner: string, s: Stmt, st1: Builder)
    requires s.If?
    ensures var thenC := CollectBlock(owner, s.body, st1);
      var elseC := if |s.orelse| > 0 then CollectBlock(owner, s.orelse, thenC.st) else Collected(None, [], true, thenC.st);
      && Extends(st1, elseC.st)
      && (thenC.entry.Some? ==> Fresh(thenC.entry.value, st1, elseC.st))
      && (elseC.entry.Some? ==> Fresh(elseC.entry.value, st1, elseC.st))
      && (forall x | x in thenC.exits :: Fresh(x.source, st1, elseC.st))
      && (forall x | x in elseC.exits :: Fresh(x.source, st1, elseC.st))
      && (forall i | |st1.flows| <= i < |elseC.st.flows| ::
            elseC.st.flows[i].source.At? && Fresh(elseC.st.flows[i].source.id, st1, elseC.st))
      && (Valid(st1) ==> Valid(elseC.st))
    decreases s, 0
  {
    var thenC := CollectBlock(owner, s.body, st1);
    BlockGrows(owner, s.body, st1);
    if |s.orelse| > 0 {
      var elseC := CollectBlock(owner, s.orelse, thenC.st);
      BlockGrows(owner, s.orelse, thenC.st);
      ExtendsTransitive(st1, thenC.st, elseC.st);
      forall i | |st1.flows| <= i < |elseC.st.flows|
        ensures elseC.st.flows[i].source.At? && Fresh(elseC.st.flows[i].source.id, st1, elseC.st)
      {
        if i < |thenC.st.flows| {
          assert elseC.st.flows[i] == thenC.st.flows[i];
        }
      }
    }
  }

  /** What processing both sides of a conditional does, seen from the
      conditional's own branch `cond`: it is the first branch recorded, and
      no exit anchor or new edge of either side starts at it. */
  lemma {:induction false} ForkGrows(owner: string, s: Stmt, st: Builder)
    requires s.If?
    ensures var f := ForkOf(owner, s, st);
      && Extends(st, f.elseC.st)
      && f.cond.owner == owner
      && f.cond.idx == Count(st.counter, Key(f.cond))
      && Fresh(f.cond, st, f.elseC.st)
      && |st.branches| < |f.elseC.st.branches|
      && f.elseC.st.branches[|st.branches|] == Branch(f.cond, s.span.line, s.span.endLine, IfSnippet(s), None)
      && (f.thenC.entry.Some? ==> Fresh(f.thenC.entry.value, st, f.elseC.st))
      && (f.elseC.entry.Some? ==> Fresh(f.elseC.entry.value, st, f.elseC.st))
      && (forall x | x in f.thenC.exits :: Fresh(x.source, st, f.elseC.st) && x.source != f.cond)
      && (forall x | x in f.elseC.exits :: Fresh(x.source, st, f.elseC.st) && x.source != f.cond)
      && (forall i | |st.flows| <= i < |f.elseC.st.flows| ::
            f.elseC.st.flows[i].source.At? && Fresh(f.elseC.st.flows[i].source.id, st, f.elseC.st) &&
            f.elseC.st.flows[i].source.id != f.cond)
      && (Valid(st) ==> Valid(f.elseC.st))
    decreases s, 1
  {
    var f := ForkOf(owner, s, st);
    var e := IfHeader(owner, s, st);
    AddBranchGrows(st, owner, HeaderKind(s), s.span.line, s.span.endLine, IfSnippet(s), "");
    assert f.cond == e.id;
    SidesGrow(owner, s, e.st);
    var end := f.elseC.st;
    ExtendsTransitive(st, e.st, end);
    assert Count(e.st.counter, Key(f.cond)) == f.cond.idx + 1;
    if f.thenC.entry.Some? {
      FreshBefore(f.thenC.entry.value, st, e.st, end, f.cond);
    }
    if f.elseC.entry.Some? {
      FreshBefore(f.elseC.entry.value, st, e.st, end, f.cond);
    }
    forall x | x in f.thenC.exits
      ensures Fresh(x.source, st, end) && x.source != f.cond
    {
      FreshBefore(x.source, st, e.st, end, f.cond);
    }
    forall x | x in f.elseC.exits
      ensures Fresh(x.source, st, end) && x.source != f.cond
    {
      FreshBefore(x.source, st, e.st, end, f.cond);
    }
    forall i | |st.flows| <= i < |end.flows|
      ensures end.flows[i].source.At? && Fresh(end.flows[i].source.id, st, end) && end.flows[i].source.id != f.cond
    {
      assert |e.st.flows| == |st.flows|;
      FreshBefore(end.flows[i].source.id, st, e.st, end, f.cond);
    }
    assert e.st.branches <= end.branches;
  }

  /** The fork edges start at the conditional, so a fork whose side edges
      start at fresh branches adds only edges from fresh branches. */
  lemma WireForkFresh(f: Fork, a: Builder)
    requires |a.flows| <= |f.elseC.st.flows|
    requires Fresh(f.cond, a, f.elseC.st)
    requires forall i | |a.flows| <= i < |f.elseC.st.flows| ::
      f.elseC.st.flows[i].source.At? && Fresh(f.elseC.st.flows[i].source.id, a, f.elseC.st)
    ensures var w := WireFork(f);
      && Extends(f.elseC.st, w)
      && (forall i | |a.flows| <= i < |w.flows| :: w.flows[i].source.At? && Fresh(w.flows[i].source.id, a, w))
  {
    var w := WireFork(f);
    forall i | |a.flows| <= i < |w.flows|
      ensures w.flows[i].source.At? && Fresh(w.flows[i].source.id, a, w)
    {
      if i < |f.elseC.st.flows| {
        assert w.flows[i] == f.elseC.st.flows[i];
      } else {
        assert ForkEdge(f, w.flows[i]);
      }
    }
  }

  /** A conditional's exits sit on fresh branches when its sides' exits do. */
  lemma ForkExitsFresh(f: Fork, a: Builder)
    requires Fresh(f.cond, a, f.elseC.st)
    requires forall x | x in f.thenC.exits :: Fresh(x.source, a, f.elseC.st)
    requires forall x | x in f.elseC.exits :: Fresh(x.source, a, f.elseC.st)
    ensures forall x | x in Dedup(ForkExits(f)) :: Fresh(x.source, a, f.elseC.st)
  {
    var xs := ForkExits(f);
    forall x | x in Dedup(xs)
      ensures Fresh(x.source, a, f.elseC.st)
    {
      assert x in xs;
    }
  }

  /** A conditional's result grows its builder whenever its fork does. */
  lemma ForkResultGrows(f: Fork, st: Builder, r: Collected)
    requires && Extends(st, f.elseC.st)
      && Fresh(f.cond, st, f.elseC.st)
      && |st.branches| < |f.elseC.st.branches|
      && f.elseC.st.branches[|st.branches|].id == f.cond
      && (f.thenC.entry.Some? ==> Fresh(f.thenC.entry.value, st, f.elseC.st))
      && (f.elseC.entry.Some? ==> Fresh(f.elseC.entry.value, st, f.elseC.st))
      && (forall x | x in f.thenC.exits :: Fresh(x.source, st, f.elseC.st))
      && (forall x | x in f.elseC.exits :: Fresh(x.source, st, f.elseC.st))
      && (forall i | |st.flows| <= i < |f.elseC.st.flows| ::
            f.elseC.st.flows[i].source.At? && Fresh(f.elseC.st.flows[i].source.id, st, f.elseC.st))
      && (Valid(st) ==> Valid(f.elseC.st))
    requires r.entry == Some(f.cond) && r.st == WireFork(f)
    requires forall x | x in r.exits :: x.source == f.cond || x in Dedup(ForkExits(f))
    ensures Grows(st, r)
  {
    WireForkFresh(f, st);
    ExtendsTransitive(st, f.elseC.st, r.st);
    ForkExitsFresh(f, st);
  }

  lemma {:induction false} IfGrows(owner: string, s: Stmt, st: Builder)
    requires s.If?
    ensures Grows(st, CollectIf(owner, s, st))
    decreases s, 2
  {
    var f := ForkOf(owner, s, st);
    ForkGrows(owner, s, st);
    var r := CollectIf(owner, s, st);
    assert r.entry == Some(f.cond) && r.st == WireFork(f);
    assert forall x | x in r.exits :: x.source == f.cond || x in Dedup(ForkExits(f));
    ForkResultGrows(f, st, r);
  }

  /** Wiring a prefix's pending exits into the next statement's entry adds
      edges from branches recorded since `st` only. */
  lemma ConnectFlowsFresh(st: Builder, p: Collected, c: Collected)
    requires Grows(st, p) && Grows(p.st, c) && c.entry.Some?
    ensures var w := Connect(p.exits, c.entry.value, c.st);
      forall i | |st.flows| <= i < |w.flows| :: w.flows[i].source.At? && Fresh(w.flows[i].source.id, st, w)
  {
    var w := Connect(p.exits, c.entry.value, c.st);
    forall i | |st.flows| <= i < |w.flows|
      ensures w.flows[i].source.At? && Fresh(w.flows[i].source.id, st, w)
    {
      if i < |p.st.flows| {
        assert w.flows[i] == p.st.flows[i];
      } else if i < |c.st.flows| {
        assert w.flows[i] == c.st.flows[i];
      } else {
        assert Exit(w.flows[i].source.id, w.flows[i].flowType) in p.exits;
      }
    }
  }

  /** The wiring keeps the builder invariant. */
  lemma ConnectValid(st: Builder, p: Collected, c: Collected)
    requires Grows(st, p) && Grows(p.st, c) && c.entry.Some? && Valid(st)
    ensures Valid(Connect(p.exits, c.entry.value, c.st))
  {
    forall x | x in p.exits
      ensures Allocated(x.source, c.st.counter)
    {
      assert Fresh(x.source, st, p.st);
    }
  }

  /** One step of a block: a prefix `p` grown from `st`, then a statement `c`
      grown from `p.st`, combined as the block does. */
  lemma StepGrows(st: Builder, p: Collected, c: Collected, r: Collected)
    requires Grows(st, p) && Grows(p.st, c)
    requires c.entry.Some? ==>
      && r.entry == (if p.entry.Some? then p.entry else c.entry)
      && r.exits == c.exits
      && r.st == Connect(p.exits, c.entry.value, c.st)
    requires c.entry.None? ==> r.entry == p.entry && (r.exits == [] || r.exits == p.exits) && r.st == c.st == p.st
    ensures Grows(st, r)
  {
    ExtendsTransitive(st, p.st, c.st);
    if c.entry.Some? {
      ConnectFlowsFresh(st, p, c);
      if Valid(st) {
        ConnectValid(st, p, c);
      }
      assert Extends(c.st, r.st);
      ExtendsTransitive(st, c.st, r.st);
      if p.entry.Some? {
        assert p.st.branches <= r.st.branches;
      }
    }
  }

  lemma {:induction false} BlockGrows(owner: string, ss: seq<Stmt>, st: Builder)
    ensures Grows(st, CollectBlock(owner, ss, st))
    decreases ss, 4
  {
    if |ss| > 0 {
      var prefix := ss[..|ss| - 1];
      var p := CollectBlock(owner, prefix, st);
      BlockGrows(owner, prefix, st);
      var c := CollectStmt(owner, ss[|ss| - 1], p.st);
      StmtGrows(owner, ss[|ss| - 1], p.st);
      StepGrows(st, p, c, CollectBlock(owner, ss, st));
    }
  }

  /** Processing a statement keeps a valid builder valid. */
  lemma StmtKeepsValid(owner: string, s: Stmt, st: Builder)
    requires Valid(st)
    ensures Valid(CollectStmt(owner, s, st).st)
  {
    StmtGrows(owner, s, st);
  }

  /** Processing a block keeps a valid builder valid. */
  lemma BlockKeepsValid(owner: string, ss: seq<Stmt>, st: Builder)
    requires Valid(st)
    ensures Valid(CollectBlock(owner, ss, st).st)
  {
    BlockGrows(owner, ss, st);
  }
}

=== FILE: oracle.dfy ===
/** The reachability oracle: the truth value of a condition when it is obvious
    from the syntax alone. */
module Oracle {
  import opened Wrappers
  import opened Ast

  /** `Some(b)` when the condition is statically `b`, `None` when unknown.
      Only literals and negations of known conditions are resolved. */
  function KnownTruth(e: Expr): (r: Option<bool>)
    ensures r.Some? ==> e.Constant? || e.Not?
    ensures e.Constant? ==> (r.Some? <==> !e.lit.OtherLit?)
  {
    match e
    case Constant(BoolLit(b)) => Some(b)
    case Constant(NoneLit) => Some(false)
    case Not(inner) =>
      (match KnownTruth(inner)
       case None => None
       case Some(b) => Some(!b))
    case _ => None
  }

  /** Truthiness of a condition over the reduced literal syntax of `Ast`: only
      `True`, `False`, `None` and `not` are fixed here. `env` gives the
      truthiness of everything else, including constants such as `0` or `""`
      that are all one `OtherLit`, so completeness below is relative to that
      reduction, not to full Python truthiness. */
  function Truth(e: Expr, env: Expr -> bool): bool
  {
    match e
    case Constant(BoolLit(b)) => b
    case Constant(NoneLit) => false
    case Not(inner) => !Truth(inner, env)
    case _ => env(e)
  }

  /** The oracle is sound: a known value is the condition's value in every environment. */
  lemma {:induction false} KnownTruthSound(e: Expr, env: Expr -> bool)
    requires KnownTruth(e).Some?
    ensures Truth(e, env) == KnownTruth(e).value
  {
    match e
    case Constant(_) =>
    case Not(inner) => KnownTruthSound(inner, env);
  }

  /** The oracle is complete for this semantics: when it answers unknown, the
      condition's value does depend on the environment. */
  lemma {:induction false} KnownTruthComplete(e: Expr)
    requires KnownTruth(e).None?
    ensures Truth(e, _ => true) != Truth(e, _ => false)
  {
    match e
    case Not(inner) => KnownTruthComplete(inner);
    case _ =>
  }

  /** A double negation is resolved exactly as the condition it wraps. */
  lemma DoubleNegation(e: Expr)
    ensures KnownTruth(Not(Not(e))) == KnownTruth(e)
  {
  }
}

=== FILE: properties.dfy ===
/** Properties of the branch-flow graph builder. */
module Properties {
  import opened Wrappers
  import opened Ast
  import opened Oracle
  import opened FallThrough
  import opened Unique
  import opened Graph
  import opened Collector
  import opened Analysis
  import opened Growth

  /** How a conditional's result is assembled from its fork. */
  lemma IfAssembly(owner: string, s: Stmt, st: Builder)
    requires s.If?
    ensures var f := ForkOf(owner, s, st);
      var r := CollectStmt(owner, s, st);
      && r.entry == Some(f.cond)
      && r.st == WireFork(f)
      && (|s.orelse| > 0 ==>
            && r.exits == Dedup(ForkExits(f))
            && r.falls == ((f.thenReachable && f.thenC.falls) || (f.elseReachable && f.elseC.falls)))
  {
    assert CollectStmt(owner, s, st) == CollectIf(owner, s, st);
  }

  /** A conditional records its own branch first: the next `if` or `elif`
      branch of `owner`, with the conditional's lines and snippet and no callee. */
  lemma IfRecordsHeader(owner: string, s: Stmt, st: Builder)
    requires s.If?
    ensures var r := CollectStmt(owner, s, st);
      && r.entry == Some(BranchId(owner, HeaderKind(s), Count(st.counter, (owner, HeaderKind(s)))))
      && |st.branches| < |r.st.branches|
      && r.st.branches[|st.branches|] == Branch(r.entry.value, s.span.line, s.span.endLine, IfSnippet(s), None)
  {
    ForkGrows(owner, s, st);
    assert CollectStmt(owner, s, st) == CollectIf(owner, s, st);
  }

  /** No edge recorded before an id was handed out starts at it. */
  lemma OldFlowsNotFrom(st: Builder, id: BranchId)
    requires Valid(st) && Count(st.counter, Key(id)) <= id.idx
    ensures forall i | 0 <= i < |st.flows| :: st.flows[i].source != At(id)
  {
    forall i | 0 <= i < |st.flows|
      ensures st.flows[i].source != At(id)
    {
      assert FlowAllocated(st.flows[i], st.counter);
    }
  }

  /** Index form of the fork-edge property, over the builder after the fork. */
  lemma ForkEdgesByIndex(owner: string, s: Stmt, st: Builder)
    requires Valid(st) && s.If?
    ensures var f := ForkOf(owner, s, st);
      var w := WireFork(f);
      forall i | 0 <= i < |w.flows| :: w.flows[i].source == At(f.cond) ==> ForkEdge(f, w.flows[i])
  {
    var f := ForkOf(owner, s, st);
    ForkGrows(owner, s, st);
    OldFlowsNotFrom(st, f.cond);
    var mid := f.elseC.st;
    var w := WireFork(f);
    assert st.flows <= mid.flows <= w.flows;
    forall i | 0 <= i < |w.flows|
      ensures w.flows[i].source == At(f.cond) ==> ForkEdge(f, w.flows[i])
    {
      if i < |st.flows| {
        assert w.flows[i] == mid.flows[i] == st.flows[i];
      } else if i < |mid.flows| {
        assert w.flows[i] == mid.flows[i];
        assert mid.flows[i].source.id != f.cond;
      }
    }
  }

  /** The only edges that start at a conditional are its fork edges: `true`
      into the entry of a reachable then-side, `false` into the entry of a
      reachable else-side; and each of those is present. */
  lemma ForkEdges(owner: string, s: Stmt, st: Builder)
    requires Valid(st) && s.If?
    ensures var f := ForkOf(owner, s, st);
      var r := CollectStmt(owner, s, st);
      && r.entry == Some(f.cond)
      && (forall fl | fl in r.st.flows && fl.source == At(f.cond) :: ForkEdge(f, fl))
      && (f.thenReachable && f.thenC.entry.Some? ==> Flow(At(f.cond), f.thenC.entry.value, OnTrue) in r.st.flows)
      && (f.elseReachable && f.elseC.entry.Some? ==> Flow(At(f.cond), f.elseC.entry.value, OnFalse) in r.st.flows)
  {
    var f := ForkOf(owner, s, st);
    var r := CollectStmt(owner, s, st);
    IfAssembly(owner, s, st);
    StmtGrows(owner, s, st);
    assert Valid(r.st);
    ForkEdgesByIndex(owner, s, st);
  }

  /** Dead-branch suppression: no `true` edge leaves a conditional whose test
      is known false, and no `false` edge one whose test is known true. */
  lemma DeadBranchSuppressed(owner: string, s: Stmt, st: Builder)
    requires Valid(st) && s.If?
    ensures var r := CollectStmt(owner, s, st);
      && r.entry.Some?
      && (KnownTruth(s.test) == Some(false) ==>
            forall fl | fl in r.st.flows && fl.source == At(r.entry.value) :: fl.flowType != OnTrue)
      && (KnownTruth(s.test) == Some(true) ==>
            forall fl | fl in r.st.flows && fl.source == At(r.entry.value) :: fl.flowType != OnFalse)
  {
    ForkEdges(owner, s, st);
  }

  /** A conditional with an else: its exits are the exits of its reachable
      sides plus anchors on the conditional itself, without duplicates; an
      anchor on the conditional is `true` only when the then-side is reachable,
      `false` only when the else-side is, and never `next`. Its fall-through is
      that of some reachable side. */
  lemma IfElseExits(owner: string, s: Stmt, st: Builder)
    requires s.If? && |s.orelse| > 0
    ensures var f := ForkOf(owner, s, st);
      var r := CollectStmt(owner, s, st);
      && r.entry == Some(f.cond)
      && Distinct(r.exits)
      && (forall x | x in r.exits ::
            x.source == f.cond ==>
              && x.flowType != Next
              && (x.flowType == OnTrue ==> f.thenReachable)
              && (x.flowType == OnFalse ==> f.elseReachable))
      && (forall x | x in r.exits ::
            || x.source == f.cond
            || (x in f.thenC.exits && f.thenReachable)
            || (x in f.elseC.exits && f.elseReachable))
      && (f.thenReachable ==> forall x | x in f.thenC.exits :: x in r.exits)
      && (f.elseReachable ==> forall x | x in f.elseC.exits :: x in r.exits)
      && (f.thenReachable && f.thenC.entry.None? && BlockFalls(s.body) ==> Exit(f.cond, OnTrue) in r.exits)
      && (f.elseReachable && f.elseC.entry.None? && BlockFalls(s.orelse) ==> Exit(f.cond, OnFalse) in r.exits)
      && r.falls == ((f.thenReachable && BlockFalls(s.body)) || (f.elseReachable && BlockFalls(s.orelse)))
  {
    var f := ForkOf(owner, s, st);
    ForkGrows(owner, s, st);
    IfAssembly(owner, s, st);
    var xs := ForkExits(f);
    var r := CollectStmt(owner, s, st);
    forall x | x in r.exits
      ensures x.source == f.cond ==>
        && x.flowType != Next
        && (x.flowType == OnTrue ==> f.thenReachable)
        && (x.flowType == OnFalse ==> f.elseReachable)
    {
      assert x in xs;
    }
  }

  /** The reachability-aware fall-through of a statement never claims more
      than the syntactic analysis, and the two agree whenever the oracle has
      nothing to say. */
  lemma FallsRefinesSyntactic(owner: string, s: Stmt, st: Builder)
    ensures var r := CollectStmt(owner, s, st);
      && (r.falls ==> StmtFalls(s))
      && (!s.If? || KnownTruth(s.test).None? ==> r.falls == StmtFalls(s))
  {
    if s.If? {
      IfFallsRefines(owner, s, st);
    } else {
      assert CollectStmt(owner, s, st) == CollectLeaf(owner, s, st);
    }
  }

  /** A conditional with an else falls through when some reachable side does. */
  lemma IfWithElseFalls(owner: string, s: Stmt, st: Builder)
    requires s.If? && |s.orelse| > 0
    ensures var f := ForkOf(owner, s, st);
      CollectIf(owner, s, st).falls == ((f.thenReachable && BlockFalls(s.body)) || (f.elseReachable && BlockFalls(s.orelse)))
    ensures KnownTruth(s.test).None? ==>
      CollectIf(owner, s, st).falls == (BlockFalls(s.body) || BlockFalls(s.orelse))
    ensures StmtFalls(s) == (BlockFalls(s.body) || BlockFalls(s.orelse))
  {
  }

  lemma IfFallsRefines(owner: string, s: Stmt, st: Builder)
    requires s.If?
    ensures var r := CollectIf(owner, s, st);
      && (r.falls ==> StmtFalls(s))
      && (KnownTruth(s.test).None? ==> r.falls == StmtFalls(s))
  {
    if |s.orelse| > 0 {
      IfWithElseFalls(owner, s, st);
    }
  }

  /** A block emits an entry iff some statement in it produces a branch. */
  lemma {:induction false} BlockEntryIffEmits(owner: string, ss: seq<Stmt>, st: Builder)
    ensures CollectBlock(owner, ss, st).entry.Some? <==> exists i | 0 <= i < |ss| :: EmitsBranch(ss[i])
  {
    if |ss| > 0 {
      var prefix := ss[..|ss| - 1];
      BlockEntryIffEmits(owner, prefix, st);
      if exists i | 0 <= i < |prefix| :: EmitsBranch(prefix[i]) {
        var i :| 0 <= i < |prefix| && EmitsBranch(prefix[i]);
        assert ss[i] == prefix[i];
      }
      if exists i | 0 <= i < |ss| :: EmitsBranch(ss[i]) {
        var i :| 0 <= i < |ss| && EmitsBranch(ss[i]);
        if i < |ss| - 1 {
          assert prefix[i] == ss[i];
        }
      }
    }
  }

  /** A statement that produces no branch (the clear of pending exits after a
      non-falling statement never happens) leaves a block's entry, exits and
      builder exactly as they were. */
  lemma PlainStatementKeepsBlock(owner: string, ss: seq<Stmt>, s: Stmt, st: Builder)
    requires !EmitsBranch(s)
    ensures var p := CollectBlock(owner, ss, st);
      var r := CollectBlock(owner, ss + [s], st);
      r.entry == p.entry && r.exits == p.exits && r.st == p.st
  {
    assert (ss + [s])[..|ss|] == ss;
  }

  lemma {:induction false} EntryStable(owner: string, ss: seq<Stmt>, st: Builder, k: nat, j: nat)
    requires k < j <= |ss|
    requires CollectBlock(owner, ss[..k + 1], st).entry.Some?
    ensures CollectBlock(owner, ss[..j], st).entry == CollectBlock(owner, ss[..k + 1], st).entry
    decreases j
  {
    if j > k + 1 {
      EntryStable(owner, ss, st, k, j - 1);
      assert ss[..j][..j - 1] == ss[..j - 1];
    }
  }

  /** A block's entry is the entry of its first branch-producing statement,
      which is processed from the block's starting builder. */
  lemma BlockEntryIsFirstEmitter(owner: string, ss: seq<Stmt>, st: Builder, k: nat)
    requires k < |ss| && EmitsBranch(ss[k])
    requires forall i | 0 <= i < k :: !EmitsBranch(ss[i])
    ensures CollectBlock(owner, ss, st).entry == CollectStmt(owner, ss[k], st).entry
  {
    var before := ss[..k];
    BlockEntryIffEmits(owner, before, st);
    assert ss[..k + 1][..k] == before;
    EntryStable(owner, ss, st, k, |ss|);
    assert ss[..|ss|] == ss;
  }

  lemma {:induction false} ExitsStable(owner: string, ss: seq<Stmt>, st: Builder, k: nat, j: nat)
    requires k < j <= |ss|
    requires forall i | k < i < |ss| :: !EmitsBranch(ss[i])
    ensures CollectBlock(owner, ss[..j], st).exits == CollectBlock(owner, ss[..k + 1], st).exits
    decreases j
  {
    if j > k + 1 {
      ExitsStable(owner, ss, st, k, j - 1);
      assert ss[..j] == ss[..j - 1] + [ss[j - 1]];
      PlainStatementKeepsBlock(owner, ss[..j - 1], ss[j - 1], st);
    }
  }

  /** A block's pending exits are those of its last branch-producing statement. */
  lemma BlockExitsOfLastEmitter(owner: string, ss: seq<Stmt>, st: Builder, k: nat)
    requires k < |ss| && EmitsBranch(ss[k])
    requires forall i | k < i < |ss| :: !EmitsBranch(ss[i])
    ensures CollectBlock(owner, ss, st).exits == CollectStmt(owner, ss[k], CollectBlock(owner, ss[..k], st).st).exits
  {
    assert ss[..k + 1][..k] == ss[..k];
    ExitsStable(owner, ss, st, k, |ss|);
    assert ss[..|ss|] == ss;
  }

  /** Wiring: when a branch-producing statement follows, every pending exit of
      the block so far becomes an edge into its entry carrying the anchor's own
      flow type, and no other edge into it is added by the block. */
  lemma BlockWiring(owner: string, ss: seq<Stmt>, s: Stmt, st: Builder)
    requires Valid(st) && EmitsBranch(s)
    ensures var p := CollectBlock(owner, ss, st);
      var c := CollectStmt(owner, s, p.st);
      var r := CollectBlock(owner, ss + [s], st);
      && c.entry.Some?
      && r.exits == c.exits
      && (forall x | x in p.exits :: Flow(At(x.source), c.entry.value, x.flowType) in r.st.flows)
      && c.st.flows <= r.st.flows
      && (forall i | |c.st.flows| <= i < |r.st.flows| ::
            r.st.flows[i].target == c.entry.value && r.st.flows[i].source.At? &&
            Exit(r.st.flows[i].source.id, r.st.flows[i].flowType) in p.exits)
  {
    assert (ss + [s])[..|ss|] == ss;
    var p := CollectBlock(owner, ss, st);
    var c := CollectStmt(owner, s, p.st);
    var r := CollectBlock(owner, ss + [s], st);
    assert r.st == Connect(p.exits, c.entry.value, c.st);
    BlockKeepsValid(owner, ss + [s], st);
  }

  /** Entry anchoring: analysing a function adds exactly one edge from an entry
      anchor, the `next` edge from `owner::<qualified name>` to the first branch
      of its body, and only if some statement of the body produces a branch. */
  lemma EntryAnchor(scope: string, name: string, body: seq<Stmt>, st: Builder)
    requires Valid(st)
    ensures var qn := QualifiedName(scope, name);
      var r := AnalyzeFunction(scope, name, body, st);
      && Valid(r)
      && ((exists i | |st.flows| <= i < |r.flows| :: r.flows[i].source.ScopeEntry?) <==>
          (exists j | 0 <= j < |body| :: EmitsBranch(body[j])))
      && (forall i | |st.flows| <= i < |r.flows| && r.flows[i].source.ScopeEntry? ::
            && i == |r.flows| - 1
            && |st.branches| < |r.branches|
            && r.flows[i] == Flow(ScopeEntry(qn), r.branches[|st.branches|].id, Next))
  {
    var qn := QualifiedName(scope, name);
    var c := CollectBlock(qn, body, st);
    BlockGrows(qn, body, st);
    BlockEntryIffEmits(qn, body, st);
    var r := AnalyzeFunction(scope, name, body, st);
    if c.entry.Some? {
      var anchor := Flow(ScopeEntry(qn), c.entry.value, Next);
      forall i | 0 <= i < |c.st.flows|
        ensures c.st.flows[i] != anchor
      {
        if i < |st.flows| {
          assert c.st.flows[i] == st.flows[i];
          assert FlowAllocated(st.flows[i], st.counter);
        }
      }
      assert anchor !in c.st.seen;
      assert r.flows == c.st.flows + [anchor];
    }
    forall i | |st.flows| <= i < |r.flows|
      ensures r.flows[i].source.ScopeEntry? ==>
        i == |r.flows| - 1 && |st.branches| < |r.branches| &&
        r.flows[i] == Flow(ScopeEntry(qn), r.branches[|st.branches|].id, Next)
    {
      if i < |c.st.flows| {
        assert r.flows[i] == c.st.flows[i];
      }
    }
    if c.entry.Some? {
      assert r.flows[|r.flows| - 1].source.ScopeEntry?;
    }
  }

  /** In one analysis run, branch ids are pairwise distinct, every (owner,
      kind) has used the indices 0, 1, 2, ... in order, and no edge triple is
      recorded twice. */
  lemma RunUnique(fns: seq<FunctionDecl>)
    ensures var r := Run(fns);
      && (forall i, j | 0 <= i < j < |r.branches| :: r.branches[i].id != r.branches[j].id)
      && (forall key :: IndicesOf(r.branches, key) == UpTo(Count(r.counter, key)))
      && Distinct(r.flows)
  {
    IdsDistinct(Run(fns));
  }
}

=== FILE: scenarios.dfy ===
/** Worked examples: small function bodies and the graph built for them. */
module Scenarios {
  import opened Wrappers
  import opened Ast
  import opened Snippet
  import opened Graph
  import opened Collector
  import opened Analysis
  import opened Growth

  // The lemmas below take the builder as a parameter equal to `Empty` rather
  // than the constant itself: this keeps Dafny from unfolding the collector
  // functions on literal arguments, which is far more expensive.

  function NoText(line: nat): Span { Span("", line, line) }

  const IfId := BranchId("f", IfKind, 0)
  const RetId := BranchId("f", ReturnKind, 0)
  const CallId := BranchId("f", CallKind, 0)

  const GuardIf := If(NoText(2), Name("x"), [Return(NoText(3), false)], [])
  const CallY := ExprStmt(NoText(4), Call(Name("y")))

  lemma IfHeaderIsNotElif()
    ensures !IsElifHeader("if ...:")
  {
    var h := "if ...:";
    assert h[0] == 'i' && 'i' !in Whitespace;
    assert LStrip(h) == h;
    assert h[..5][0] != "elif "[0];
  }

  lemma GuardFork(st: Builder)
    requires st == Empty
    ensures var f := ForkOf("f", GuardIf, st);
      && f.cond == IfId
      && f.thenC.entry == Some(RetId)
      && f.elseC.entry == None
      && f.elseC.st == f.thenC.st
      && f.elseC.st.flows == [] && f.elseC.st.seen == {}
      && Count(f.elseC.st.counter, ("f", CallKind)) == 0
  {
    IfHeaderIsNotElif();
  }

  lemma GuardIfResult(st: Builder)
    requires st == Empty
    ensures var c := CollectStmt("f", GuardIf, st);
      && c.entry == Some(IfId)
      && c.exits == [Exit(IfId, OnFalse)]
      && c.st.flows == [Flow(At(IfId), RetId, OnTrue)]
      && Count(c.st.counter, ("f", CallKind)) == 0
      && |c.st.branches| == 2 && c.st.branches[0].id == IfId && c.st.branches[1].id == RetId
  {
    GuardFork(st);
    var f := ForkOf("f", GuardIf, st);
    ThenEdgeOnly(f);
    assert CollectStmt("f", GuardIf, st) == CollectIf("f", GuardIf, st);
  }

  /** A fork whose only reachable entry is on the then-side, over a builder
      with no edges, adds exactly the `true` edge into it. */
  lemma ThenEdgeOnly(f: Fork)
    requires f.thenReachable && f.thenC.entry.Some? && f.elseC.entry.None? && f.elseC.st.flows == [] && f.elseC.st.seen == {}
    ensures WireFork(f).flows == [Flow(At(f.cond), f.thenC.entry.value, OnTrue)]
  {
  }

  lemma CallYResult(st: Builder)
    requires Count(st.counter, ("f", CallKind)) == 0
    ensures var c := CollectStmt("f", CallY, st);
      && c.entry == Some(CallId)
      && c.st.flows == st.flows && c.st.seen == st.seen
      && c.st.branches == st.branches + [Branch(CallId, 4, 4, "y(...)", Some("y"))]
  {
    assert CollectStmt("f", CallY, st) == CollectSimple("f", CallY, st);
    assert ExtractStmtCall(CallY) == Some(Call(Name("y")));
    assert CallName(Call(Name("y"))) == "y";
    assert "y" + "(...)" == "y(...)";
    assert SnippetOr("", "y(...)") == "y(...)";
    assert CollectSimple("f", CallY, st) == Straight("f", CallKind, NoText(4), "y(...)", "y", st);
  }

  /** A two-statement block: the second statement's branch is wired to the
      first's exits. */
  lemma PairBlock(owner: string, a: Stmt, b: Stmt, st: Builder)
    ensures var p := CollectBlock(owner, [a], st);
      var c := CollectStmt(owner, b, p.st);
      var r := CollectBlock(owner, [a, b], st);
      c.entry.Some? ==>
        && r.entry == (if p.entry.Some? then p.entry else c.entry)
        && r.st == Connect(p.exits, c.entry.value, c.st)
  {
    assert [a, b][..1] == [a];
  }

  /** Wiring a single pending exit adds at most that one edge. */
  lemma ConnectOne(x: Exit, target: BranchId, st: Builder)
    ensures Connect([x], target, st) == AddFlow(st, Flow(At(x.source), target, x.flowType))
  {
    assert [x][1..] == [];
  }

  lemma GuardPrefix(st: Builder)
    requires st == Empty
    ensures var p := CollectBlock("f", [GuardIf], st);
      && p.entry == Some(IfId)
      && p.exits == [Exit(IfId, OnFalse)]
      && p.st == CollectStmt("f", GuardIf, st).st
  {
    assert [GuardIf][..0] == [];
    GuardIfResult(st);
  }

  lemma GuardIfUnseen(st: Builder)
    requires st == Empty
    ensures Flow(At(IfId), CallId, OnFalse) !in CollectStmt("f", GuardIf, st).st.seen
  {
    GuardIfResult(st);
    EmptyValid();
    StmtKeepsValid("f", GuardIf, st);
  }

  lemma GuardBlockFlows(st: Builder)
    requires st == Empty
    ensures var b := CollectBlock("f", [GuardIf, CallY], st);
      && b.entry == Some(IfId)
      && b.st.flows == [Flow(At(IfId), RetId, OnTrue), Flow(At(IfId), CallId, OnFalse)]
  {
    GuardPrefix(st);
    GuardIfResult(st);
    GuardIfUnseen(st);
    var g := CollectStmt("f", GuardIf, st).st;
    CallYResult(g);
    var c := CollectStmt("f", CallY, g);
    ConnectOne(Exit(IfId, OnFalse), CallId, c.st);
    PairBlock("f", GuardIf, CallY, st);
  }

  lemma GuardBlockBranches(st: Builder)
    requires st == Empty
    ensures var b := CollectBlock("f", [GuardIf, CallY], st);
      && |b.st.branches| == 3
      && b.st.branches[0].id == IfId && b.st.branches[1].id == RetId && b.st.branches[2].id == CallId
      && b.st.branches[2].callee == Some("y")
  {
    GuardPrefix(st);
    GuardIfResult(st);
    var g := CollectStmt("f", GuardIf, st).st;
    CallYResult(g);
    PairBlock("f", GuardIf, CallY, st);
  }

  lemma GuardAnchorUnseen(st: Builder)
    requires st == Empty
    ensures Flow(ScopeEntry("f"), IfId, Next) !in CollectBlock("f", [GuardIf, CallY], st).st.seen
  {
    GuardBlockFlows(st);
    EmptyValid();
    BlockKeepsValid("f", [GuardIf, CallY], st);
  }

  /** The guard clause `if x: return` followed by `y()`: the call is reached
      from the conditional along its `false` edge. */
  lemma GuardClause(st: Builder)
    requires st == Empty
    ensures var r := AnalyzeFunction(ModuleScope, "f", [GuardIf, CallY], st);
      && |r.branches| == 3
      && r.branches[0].id == IfId && r.branches[1].id == RetId && r.branches[2].id == CallId
      && r.branches[2].callee == Some("y")
      && r.flows == [
           Flow(At(IfId), RetId, OnTrue),
           Flow(At(IfId), CallId, OnFalse),
           Flow(ScopeEntry("f"), IfId, Next)]
  {
    GuardBlockFlows(st);
    GuardBlockBranches(st);
    GuardAnchorUnseen(st);
    assert QualifiedName(ModuleScope, "f") == "f";
    var b := CollectBlock("f", [GuardIf, CallY], st);
    var anchor := Flow(ScopeEntry("f"), IfId, Next);
    assert AnalyzeFunction(ModuleScope, "f", [GuardIf, CallY], st) == AddFlow(b.st, anchor);
  }
}

=== FILE: snippet.dfy ===
/** Rendering of the one-line snippet recorded with every branch, and the
    textual test that tells an `elif` from an `if`. */
module Snippet {

  /** Longest snippet kept verbatim. */
  const MaxSnippet: nat := 70

  /** Characters kept before the ellipsis when a line is too long. */
  const KeptPrefix: nat := 67

  const Ellipsis: string := "..."

  /** The text before the first line break. */
  function FirstLine(text: string): (line: string)
    ensures line <= text
    ensures '\n' !in line
    ensures |line| < |text| ==> text[|line|] == '\n'
  {
    if |text| == 0 || text[0] == '\n' then ""
    else [text[0]] + FirstLine(text[1..])
  }

  /** A line of at most 70 characters is kept; a longer one is cut to its first
      67 characters followed by "...", so the result never exceeds 70. */
  function Truncate(line: string): (r: string)
    ensures |r| <= MaxSnippet
    ensures r == line <==> |line| <= MaxSnippet
    ensures r != line ==> |r| == MaxSnippet && r[..KeptPrefix] == line[..KeptPrefix] && r[KeptPrefix..] == Ellipsis
  {
    if |line| <= MaxSnippet then line
    else line[..KeptPrefix] + Ellipsis
  }

  /** The snippet of a statement whose source text is `segment`; empty when the
      text is unavailable (or begins with a line break). */
  function SnippetOf(segment: string): (r: string)
    ensures |r| <= MaxSnippet
    ensures '\n' !in r
    ensures segment == "" ==> r == ""
    ensures |FirstLine(segment)| <= MaxSnippet ==> r == FirstLine(segment)
    ensures segment != "" ==> r == Truncate(FirstLine(segment))
  {
    if segment == "" then "" else Truncate(FirstLine(segment))
  }

  /** The snippet, or `fallback` when it came out empty. */
  function SnippetOr(segment: string, fallback: string): (r: string)
    ensures SnippetOf(segment) != "" ==> r == SnippetOf(segment)
    ensures SnippetOf(segment) == "" ==> r == fallback
    ensures r == "" ==> fallback == ""
  {
    var s := SnippetOf(segment);
    if s != "" then s else fallback
  }

  /** Characters Python's `str.isspace` accepts, which `str.lstrip()` removes. */
  const Whitespace: set<char> := {
    ' ', '\t', '\n', '\r', '\U{000B}', '\U{000C}',
    '\U{001C}', '\U{001D}', '\U{001E}', '\U{001F}', '\U{0085}', '\U{00A0}',
    '\U{1680}', '\U{2000}', '\U{2001}', '\U{2002}', '\U{2003}', '\U{2004}',
    '\U{2005}', '\U{2006}', '\U{2007}', '\U{2008}', '\U{2009}', '\U{200A}',
    '\U{2028}', '\U{2029}', '\U{202F}', '\U{205F}', '\U{3000}'
  }

  /** The end of the run of whitespace in `s` that begins at `from`. */
  function SpaceRunEnd(s: string, from: nat): (n: nat)
    requires from <= |s|
    ensures from <= n <= |s|
    ensures forall i | from <= i < n :: s[i] in Whitespace
    ensures n == |s| || s[n] !in Whitespace
    decreases |s| - from
  {
    if from < |s| && s[from] in Whitespace then SpaceRunEnd(s, from + 1) else from
  }

  /** `s` without its leading whitespace. */
  function LStrip(s: string): (r: string)
    ensures |r| <= |s| && r == s[|s| - |r|..]
    ensures forall i | 0 <= i < |s| - |r| :: s[i] in Whitespace
    ensures r == "" || r[0] !in Whitespace
  {
    s[SpaceRunEnd(s, 0)..]
  }

  predicate StartsWith(s: string, prefix: string) {
    |prefix| <= |s| && s[..|prefix|] == prefix
  }

  /** `s` holds "elif " at position `k`, preceded by whitespace only. */
  predicate ElifAt(s: string, k: nat) {
    && k + 5 <= |s|
    && (forall i | 0 <= i < k :: s[i] in Whitespace)
    && s[k..k + 5] == "elif "
  }

  /** Stripping the leading whitespace and testing the prefix finds "elif "
      exactly when it occurs after a run of whitespace. */
  lemma StrippedElif(s: string)
    ensures StartsWith(LStrip(s), "elif ") <==> exists k: nat | k <= |s| :: ElifAt(s, k)
  {
    var r := LStrip(s);
    var n := |s| - |r|;
    if StartsWith(r, "elif ") {
      assert s[n..n + 5] == r[..5];
      assert ElifAt(s, n);
    }
    if k: nat :| k <= |s| && ElifAt(s, k) {
      assert s[k] == 'e' && 'e' !in Whitespace;
      assert n <= k;
      assert s[n] == r[0] && s[n] !in Whitespace;
      assert k == n;
      assert s[k..k + 5] == r[..5];
    }
  }

  /** A conditional is recorded as `elif` exactly when its snippet, leading
      whitespace removed, begins with "elif ". */
  predicate IsElifHeader(snippet: string): (b: bool)
    ensures b <==> exists k: nat | k <= |snippet| :: ElifAt(snippet, k)
  {
    StrippedElif(snippet);
    StartsWith(LStrip(snippet), "elif ")
  }
}

=== FILE: sources.dfy ===
/** Which branches edges can leave: every edge that starts at a branch starts
    at a conditional, a loop, a `try`, a `with` or a call, never at a `return`
    or a `raise`. */
module Sources {
  import opened Ast
  import opened Unique
  import opened Graph
  import opened Collector
  import opened Analysis

  /** Branches of these kinds may have outgoing edges. */
  predicate CanLeave(k: Kind) {
    k != ReturnKind && k != RaiseKind
  }

  /** Every exit anchor sits on a branch that may have outgoing edges. */
  ghost predicate ExitsLeave(exits: seq<Exit>) {
    forall x | x in exits :: CanLeave(x.source.kind)
  }

  /** Every edge that starts at a branch starts at one that may have outgoing edges. */
  ghost predicate FlowsLeave(st: Builder) {
    forall f | f in st.flows :: f.source.At? ==> CanLeave(f.source.id.kind)
  }

  lemma {:induction false} StmtSources(owner: string, s: Stmt, st: Builder)
    requires FlowsLeave(st)
    ensures var r := CollectStmt(owner, s, st);
      FlowsLeave(r.st) && ExitsLeave(r.exits)
    decreases s, 3
  {
    if s.If? {
      IfSources(owner, s, st);
    } else {
      LeafSources(owner, s, st);
    }
  }

  lemma LeafSources(owner: string, s: Stmt, st: Builder)
    requires !s.If? && FlowsLeave(st)
    ensures var r := CollectLeaf(owner, s, st);
      FlowsLeave(r.st) && ExitsLeave(r.exits)
  {
    var r := CollectLeaf(owner, s, st);
    assert r.st.flows == st.flows;
    if r.entry.Some? && !s.Return? && !s.Raise? {
      assert CanLeave(r.entry.value.kind);
    }
  }

  /** Processing both sides of a conditional. */
  lemma {:induction false} ForkSources(owner: string, s: Stmt, st: Builder)
    requires s.If? && FlowsLeave(st)
    ensures var f := ForkOf(owner, s, st);
      && CanLeave(f.cond.kind)
      && FlowsLeave(f.elseC.st)
      && ExitsLeave(f.thenC.exits)
      && ExitsLeave(f.elseC.exits)
    decreases s, 1
  {
    var e := IfHeader(owner, s, st);
    var thenC := CollectBlock(owner, s.body, e.st);
    BlockSources(owner, s.body, e.st);
    if |s.orelse| > 0 {
      BlockSources(owner, s.orelse, thenC.st);
    }
  }

  lemma {:induction false} IfSources(owner: string, s: Stmt, st: Builder)
    requires s.If? && FlowsLeave(st)
    ensures var r := CollectIf(owner, s, st);
      FlowsLeave(r.st) && ExitsLeave(r.exits)
    decreases s, 2
  {
    var f := ForkOf(owner, s, st);
    ForkSources(owner, s, st);
    var w := WireFork(f);
    forall fl | fl in w.flows
      ensures fl.source.At? ==> CanLeave(fl.source.id.kind)
    {
      var i :| 0 <= i < |w.flows| && w.flows[i] == fl;
      if i < |f.elseC.st.flows| {
        assert fl in f.elseC.st.flows;
      } else {
        assert ForkEdge(f, fl);
      }
    }
    if |s.orelse| > 0 {
      var xs := ForkExits(f);
      forall x | x in Dedup(xs)
        ensures CanLeave(x.source.kind)
      {
        assert x in xs;
      }
    }
  }

  lemma {:induction false} BlockSources(owner: string, ss: seq<Stmt>, st: Builder)
    requires FlowsLeave(st)
    ensures var r := CollectBlock(owner, ss, st);
      FlowsLeave(r.st) && ExitsLeave(r.exits)
    decreases ss, 4
  {
    if |ss| > 0 {
      var prefix := ss[..|ss| - 1];
      var p := CollectBlock(owner, prefix, st);
      BlockSources(owner, prefix, st);
      var c := CollectStmt(owner, ss[|ss| - 1], p.st);
      StmtSources(owner, ss[|ss| - 1], p.st);
      if c.entry.Some? {
        var w := Connect(p.exits, c.entry.value, c.st);
        forall fl | fl in w.flows
          ensures fl.source.At? ==> CanLeave(fl.source.id.kind)
        {
          var i :| 0 <= i < |w.flows| && w.flows[i] == fl;
          if i < |c.st.flows| {
            assert fl in c.st.flows;
          } else {
            assert Exit(fl.source.id, fl.flowType) in p.exits;
          }
        }
      }
    }
  }

  lemma {:induction false} AnalyzeAllSources(fns: seq<FunctionDecl>, st: Builder)
    requires FlowsLeave(st)
    ensures FlowsLeave(AnalyzeAll(fns, st))
    decreases |fns|
  {
    if |fns| > 0 {
      var qn := QualifiedName(fns[0].scope, fns[0].name);
      BlockSources(qn, fns[0].body, st);
      AnalyzeAllSources(fns[1..], AnalyzeFunction(fns[0].scope, fns[0].name, fns[0].body, st));
    }
  }

  /** Terminal statements have no successors: in one analysis run no edge
      starts at a `return` or `raise` branch. */
  lemma TerminalsHaveNoSuccessors(fns: seq<FunctionDecl>)
    ensures forall f | f in Run(fns).flows && f.source.At? ::
      f.source.id.kind != ReturnKind && f.source.id.kind != RaiseKind
  {
    AnalyzeAllSources(fns, Empty);
  }
}

=== FILE: unique.dfy ===
/** Duplicate-free sequences and first-occurrence deduplication. */
module Unique {

  /** No element occurs twice. */
  predicate Distinct<T(==)>(xs: seq<T>) {
    forall i, j | 0 <= i < j < |xs| :: xs[i] != xs[j]
  }

  /** Keeps the first occurrence of every element, in order, as building a
      dictionary from the elements and listing its keys does. */
  function Dedup<T(==)>(xs: seq<T>): (r: seq<T>)
    ensures Distinct(r)
    ensures forall x | x in r :: x in xs
    ensures forall x | x in xs :: x in r
    ensures |r| <= |xs|
    ensures Distinct(xs) ==> r == xs
  {
    DedupAfter(xs, {})
  }

  /** Deduplication of `xs` when the elements of `seen` were already kept. */
  function DedupAfter<T(==)>(xs: seq<T>, seen: set<T>): (r: seq<T>)
    ensures Distinct(r)
    ensures forall x | x in r :: x in xs && x !in seen
    ensures forall x | x in xs && x !in seen :: x in r
    ensures |r| <= |xs|
    ensures Distinct(xs) && (forall x | x in xs :: x !in seen) ==> r == xs
  {
    if |xs| == 0 then []
    else if xs[0] in seen then DedupAfter(xs[1..], seen)
    else [xs[0]] + DedupAfter(xs[1..], seen + {xs[0]})
  }

  /** Appending an element to the input appends it to the result exactly when
      it is new: the result lists the distinct elements in order of first
      occurrence. */
  lemma {:induction false} DedupAfterSnoc<T>(xs: seq<T>, x: T, seen: set<T>)
    ensures DedupAfter(xs + [x], seen) ==
      if x in xs || x in seen then DedupAfter(xs, seen) else DedupAfter(xs, seen) + [x]
    decreases |xs|
  {
    if |xs| == 0 {
      assert [x][1..] == [];
    } else {
      assert (xs + [x])[0] == xs[0];
      assert (xs + [x])[1..] == xs[1..] + [x];
      if xs[0] in seen {
        DedupAfterSnoc(xs[1..], x, seen);
      } else {
        DedupAfterSnoc(xs[1..], x, seen + {xs[0]});
      }
    }
  }

  lemma DedupSnoc<T>(xs: seq<T>, x: T)
    ensures Dedup(xs + [x]) == if x in xs then Dedup(xs) else Dedup(xs) + [x]
  {
    DedupAfterSnoc(xs, x, {});
  }
}

=== FILE: wrappers.dfy ===
/** Optional values used throughout the model. */
module Wrappers {

  /** A value that may be absent; stands for Python's `X | None`. */
  datatype Option<+T> = None | Some(value: T)
}
